=== FILE: README.md ===
# Mission Control core, modelled in Dafny

Mission Control is an agency dashboard. It tracks projects, their modules,
tasks, blockers and integration events, and it offers clients a
password-protected portal. This project models the parts of it that make
decisions and proves properties of them:

- **Slug generation and the new-project form** (`Slug`, `NewProjectForm`).
  `generateSlug` is modelled as its five string steps. The form's rule is
  that the slug follows the name until the slug is edited by hand. The form
  checks the name first, then the slug, before it posts.
- **API routes** (`ProjectsRoute`, `ClientAuthRoute`, `ClientsRoute`,
  `BlockersRoute`, `TasksRoute`, `ModulesRoute`).
  - Each handler is split at the database call. `PlanX` maps the parsed
    request body to either an error response or the database command it
    would issue. The second half maps the database result to the HTTP
    response. For projects and client login this is the route's own
    `RespondX`, and for a client deletion it is `ClientsRoute.RespondDelete`.
    Every other route hands the stored data back through `Http.Relay` with
    its success status.
  - The whole handlers (`Post`, `Get`, `Patch`, `Delete`, `Auth`) join the two
    halves. They state which requests end in the success status.
  - The body is a JavaScript value (`JsValues.JsValue`). A body that failed
    to parse is `None`.
  - The model keeps the truthiness tests and the difference between
    `!v || !v.trim()` and `!v?.trim()`. It also keeps the `TypeError` that
    the catch-all turns into 400 "Invalid request".
- **Client session cookie**. It carries the attributes of section 4.1 of
  RFC 6265: `HttpOnly`, `Path=/client` and `Max-Age=86400`.
- **Middleware redirect decision** (`RouteGuard`). Signed-out users are sent
  away from `/admin…` to `/login`. Signed-in users are sent from `/login` to
  `/admin`.
- **Event feed helpers** (`EventFeed`): relative time labels, the link of an
  event, the provider filter, and the icon and badge lookups.
- **QA checklist** (`QaChecklist`): the twelve items, the passed count,
  toggling with revert, and the rounded percentage.

Shared pieces:

- `JsText` holds ECMAScript `trim` (exact white-space set) and ASCII
  `toLowerCase`.
- `Decimal` holds the decimal rendering of numbers in template strings.
- `Http` holds responses and the database result type.
- `Optional` holds `Option`.

The routes check less than their callers send:

- `POST /api/blockers` accepts any truthy `waiting_on`. Its only caller
  (src/app/admin/projects/[id]/ProjectTabs.tsx:248) sends `client` or
  `team`. `PATCH` accepts any truthy `status`, and that caller sends
  `resolved` (line 279).
- `POST /api/client/auth` compares the stored password in plain text with
  `!==`.
- The QA modal reverts a toggle only when the save request throws. An error
  status from the server keeps the toggle.

## Model

| member | source | states |
|---|---|---|
| JsText.Trim | src/app/api/projects/route.ts:16 | `trim` never lengthens its input; the result starts and ends with a non-space character; it is empty exactly when the input is all white space |
| JsText.TrimCutsFromEnds | src/app/api/projects/route.ts:16 | the trimmed string is a contiguous piece of the input, and everything cut from before and after it is white space |
| JsText.TrimOfPadded | src/app/api/projects/route.ts:33 | surrounding a string with white space never changes its trimmed value |
| JsText.TrimIdempotent | src/app/api/projects/route.ts:35 | trimming twice is trimming once |
| JsText.Lower | src/app/admin/projects/new/page.tsx:11 | `toLowerCase` keeps the length and maps every character on its own: ASCII capitals to their small letter, anything else unchanged |
| JsText.LowerOfLower | src/app/admin/projects/new/page.tsx:11 | lower-casing is idempotent |
| JsValues.GuardedTrim | src/app/api/projects/route.ts:16 | `!v \|\| !v.trim()` rejects exactly the falsy values and the blank strings, and throws for a truthy non-string |
| JsValues.OptionalTrim | src/app/api/clients/route.ts:33 | `!v?.trim()` rejects null, undefined and blank strings, and throws for every other non-string, falsy ones included |
| Http.Relay | src/app/api/tasks/route.ts:33-37 | the handlers' common ending: stored data is answered unchanged with the route's success status, a database error with 500 and its message, and no cookie is set |
| Http.RelayRecoversResult | src/app/api/blockers/route.ts:54-58 | with a success status other than 500, the status tells success from failure and the body gives back the data or the database message |
| Http.ErrorResponseInjective | src/app/api/projects/route.ts:17-27 | two error responses are equal only when their status and message are equal |
| Slug.StripDisallowed | src/app/admin/projects/new/page.tsx:13 | the strip step keeps only characters of `[a-z0-9\s-]` |
| Slug.StripIsFilter | src/app/admin/projects/new/page.tsx:13 | the strip step keeps every character of `[a-z0-9\s-]`, in input order, and drops every other character |
| Slug.StripKeepsClassMembers | src/app/admin/projects/new/page.tsx:13 | every character of the class survives the strip step as often as it occurs |
| Slug.CollapseHyphens | src/app/admin/projects/new/page.tsx:15 | after collapsing, no two hyphens are adjacent (what is kept and how many hyphens remain: `CollapseKeepsWords`, `CollapseCountsRuns`) |
| Slug.HyphenateKeepsAlphabet | src/app/admin/projects/new/page.tsx:14 | replacing white-space runs leaves no white space and only slug characters |
| Slug.HyphenateKeepsWords | src/app/admin/projects/new/page.tsx:14 | replacing white-space runs keeps every character that is neither white space nor a hyphen, in order, and adds none |
| Slug.HyphenateCountsRuns | src/app/admin/projects/new/page.tsx:14 | each white-space run becomes exactly one hyphen, and existing hyphens stay |
| Slug.CollapseKeepsWords | src/app/admin/projects/new/page.tsx:15 | collapsing hyphen runs keeps every character that is neither white space nor a hyphen, in order, and adds none |
| Slug.CollapseCountsRuns | src/app/admin/projects/new/page.tsx:15 | each hyphen run leaves exactly one hyphen |
| Slug.TrimKeepsAlnum | src/app/admin/projects/new/page.tsx:12 | trimming drops no letter or digit |
| Slug.StripKeepsAlnum | src/app/admin/projects/new/page.tsx:13 | the strip step drops no letter or digit |
| Slug.GenerateSlugKeepsAlnum | src/app/admin/projects/new/page.tsx:9-16 | the letters and digits of the slug are exactly those of the lower-cased name, in the same order |
| Slug.GenerateSlug | src/app/admin/projects/new/page.tsx:9-16 | every generated slug uses only `[a-z0-9-]` and has no double hyphen |
| Slug.SlugIsFixedPoint | src/app/admin/projects/new/page.tsx:9-16 | a string that is already a slug is returned unchanged |
| Slug.GenerateSlugIdempotent | src/app/admin/projects/new/page.tsx:9-16 | generating the slug of a slug changes nothing |
| Slug.GenerateSlugIgnoresPadding | src/app/admin/projects/new/page.tsx:12 | white space around a name does not change its slug |
| Slug.GenerateSlugExample | src/app/admin/projects/new/page.tsx:8 | "Acme Corp App" becomes "acme-corp-app", the example in the source comment |
| NewProjectForm.AutoFillInvariant | src/app/admin/projects/new/page.tsx:32-45 | after any sequence of edits, the slug is marked edited exactly when the slug field was edited; until then the slug is the slug of the current name |
| NewProjectForm.NameChanged | src/app/admin/projects/new/page.tsx:32-40 | a name change sets the name and leaves the flag and the other inputs alone; the slug becomes the slug of the new name unless it was edited by hand |
| NewProjectForm.SlugChanged | src/app/admin/projects/new/page.tsx:42-45 | a slug edit stores the typed slug, marks it as edited and leaves the other inputs alone |
| NewProjectForm.NameChangeKeepsEditedSlug | src/app/admin/projects/new/page.tsx:38 | once the slug was edited by hand, a name change keeps it |
| NewProjectForm.Submit | src/app/admin/projects/new/page.tsx:47-68 | the form posts exactly when name and slug are both non-blank; the name error wins over the slug error; the posted body is the whole form |
| NewProjectForm.FormAgreesWithRoute | src/app/admin/projects/new/page.tsx:52-59 | the form posts exactly when the route would insert, and it shows the name or slug error exactly when the route would answer with that error |
| NewProjectForm.AutoFilledSlugStoredAsShown | src/app/admin/projects/new/page.tsx:38 | an auto-filled slug is stored exactly as the form shows it |
| ProjectsRoute.PlanPost | src/app/api/projects/route.ts:12-28 | every rejection before the insert is a 400 without a cookie |
| ProjectsRoute.RejectionMessages | src/app/api/projects/route.ts:12-40 | a rejection carries the name message, the slug message or "Invalid request"; it is "Invalid request" exactly when the body is missing or not an object, or a field the handler calls `trim` on is a non-string |
| ProjectsRoute.PlanIssuesIffAcceptable | src/app/api/projects/route.ts:12-40 | the insert is issued exactly when the body has a non-blank string name and slug and string-or-absent client name and password |
| ProjectsRoute.NameCheckedFirst | src/app/api/projects/route.ts:16-21 | a missing or blank name is answered with the name error whatever the slug is |
| ProjectsRoute.SlugCheckedSecond | src/app/api/projects/route.ts:23-28 | with a valid name, a missing or blank slug is answered with the slug error |
| ProjectsRoute.InsertedRow | src/app/api/projects/route.ts:32-38 | the row holds the trimmed name, the trimmed and lower-cased slug, blank optional fields as null, and status `active` |
| ProjectsRoute.InsertedRowIsNormal | src/app/api/projects/route.ts:32-38 | every stored text field is already trimmed and the slug is already lower case |
| ProjectsRoute.NormalisedRowIsFixedPoint | src/app/api/projects/route.ts:30-40 | posting a stored row again plans the same insert |
| ProjectsRoute.RespondPost | src/app/api/projects/route.ts:42-53 | a unique violation (SQLSTATE 23505) is 409 with the slug-taken message; any other error is 500 with the database message; success is 201 with the new id |
| ProjectsRoute.Post | src/app/api/projects/route.ts:10-61 | an unacceptable request is answered with 400 and the name message, the slug message or "Invalid request", whatever storage would have said; an acceptable one is answered from the insert's outcome |
| ProjectsRoute.Nullable | src/app/api/projects/route.ts:34-36 | `x?.trim() || null` stores the trimmed text when there is some and null when the trimmed value is empty or the field is absent |
| ClientAuthRoute.PlanAuth | src/app/api/client/auth/route.ts:11-24 | the lookup by slug is issued exactly when both fields are truthy; otherwise the answer is "Invalid request" exactly when the body is missing or not an object, and the missing-fields message otherwise |
| ClientAuthRoute.PasswordMatchIsExact | src/app/api/client/auth/route.ts:30 | a password matches only when it is the stored string itself; a missing stored password never matches |
| ClientAuthRoute.SessionCookie | src/app/api/client/auth/route.ts:39-43 | the session cookie holds the project id, is HTTP-only, is scoped to `/client` and lasts 24 hours |
| ClientAuthRoute.RespondAuth | src/app/api/client/auth/route.ts:26-45 | the answer is 200 exactly on a found project with a matching password, the cookie is set exactly then, and every failure is the same 401 |
| ClientAuthRoute.Auth | src/app/api/client/auth/route.ts:9-49 | the whole handler answers 200, 400 or the one 401; 400 exactly when validation fails, and 200 exactly when the lookup finds a project whose stored password matches |
| ClientAuthRoute.FailuresIndistinguishable | src/app/api/client/auth/route.ts:26-32 | an unknown slug and a wrong password get identical responses |
| ClientAuthRoute.CookieOnlyOnExactMatch | src/app/api/client/auth/route.ts:9-45 | over the whole handler, a session cookie is set only for the stored password of the project found by the slug |
| ClientsRoute.PlanGet | src/app/api/clients/route.ts:10-20 | listing is refused with 400 exactly when `project_id` is missing or empty, and otherwise selects only the five public columns of that project, newest first by `created_at` |
| ClientsRoute.PlanPost | src/app/api/clients/route.ts:31-49 | the insert is issued exactly when project id, name and password are present; name and password are stored trimmed and a blank email as null; a rejection is "Invalid request" exactly when the body is unusable or a field reached by `?.trim()` is a non-string, and the missing-fields message otherwise |
| ClientsRoute.PlanDelete | src/app/api/clients/route.ts:62-71 | deletion is refused with 400 exactly when `id` is missing or empty, and otherwise deletes by that id |
| ClientsRoute.RespondDelete | src/app/api/clients/route.ts:73-77 | success is `{ success: true }`, an error is 500 |
| ClientsRoute.Get | src/app/api/clients/route.ts:9-27 | the records are answered with 200 exactly when a project id was given and the select succeeded |
| ClientsRoute.Post | src/app/api/clients/route.ts:29-59 | the new record is answered with 201 exactly when the request was acceptable and the insert succeeded; a missing project id gives the missing-fields message |
| ClientsRoute.Delete | src/app/api/clients/route.ts:61-78 | `{ success: true }` with 200 exactly when an id was given and the delete succeeded |
| ClientsRoute.ReadsNeverExposePassword | src/app/api/clients/route.ts:18 | rows restricted to the selected columns never carry a password |
| BlockersRoute.PlanPost | src/app/api/blockers/route.ts:11-24 | the insert is issued exactly when project id, a non-blank title and `waiting_on` are present; the title is stored trimmed; a rejection is "Invalid request" exactly when the body is unusable or the title is a non-string, and the missing-fields message otherwise |
| BlockersRoute.PlanPatch | src/app/api/blockers/route.ts:38-52 | the update is issued exactly when id and status are truthy, and it changes the status column only; a rejection is "Invalid request" exactly when the body is unusable |
| BlockersRoute.Post | src/app/api/blockers/route.ts:9-34 | the new blocker is answered with 201 exactly when the request was acceptable and the insert succeeded |
| BlockersRoute.Patch | src/app/api/blockers/route.ts:36-62 | the updated blocker is answered with 200 exactly when id and status were given and the update succeeded |
| BlockersRoute.WaitingOnNotValidated | src/app/api/blockers/route.ts:13 | any truthy `waiting_on` is accepted; the route does not restrict it to the `client` or `team` its caller sends |
| TasksRoute.PlanPost | src/app/api/tasks/route.ts:11-31 | the insert is issued exactly when module, project and a non-blank title are given; the task starts in `backlog` at position 0; a rejection is "Invalid request" exactly when the body is unusable or the title is a non-string, and the missing-fields message otherwise |
| TasksRoute.Post | src/app/api/tasks/route.ts:9-44 | the new task is answered with 201 exactly when the request was acceptable and the insert succeeded; a missing module id or a blank title gives the missing-fields message |
| ModulesRoute.PlanPost | src/app/api/modules/route.ts:11-24 | the procedure is called exactly when project id and a non-blank name are given, with the trimmed name; a rejection is "Invalid request" exactly when the body is unusable or the name is a non-string, and the missing-fields message otherwise |
| ModulesRoute.Post | src/app/api/modules/route.ts:9-37 | the new module is answered with 201 exactly when the request was acceptable and the procedure succeeded; a missing project id gives the missing-fields message |
| RouteGuard.Guard | middleware.ts:45-61 | signed-out requests under `/admin` go to `/login`; signed-in requests for `/login` go to `/admin`; everything else passes |
| RouteGuard.PassThroughCases | middleware.ts:48-59 | a request passes through exactly when neither redirect applies; in particular a signed-out visit to `/login` and a signed-in visit under `/admin` pass |
| RouteGuard.RedirectTargetPassesThrough | middleware.ts:48-59 | the page a redirect leads to is itself let through, so redirects never chain |
| RouteGuard.RedirectLeavesThePage | middleware.ts:48-59 | a redirect always leads to a different path |
| Decimal.NatToString | src/components/admin/EventFeed.tsx:51 | a number renders as digits without leading zeros: zero is the single digit `0` and a longer numeral never starts with `0` |
| Decimal.NatToStringRoundTrip | src/components/admin/EventFeed.tsx:51 | reading the rendered digits back gives the number |
| EventFeed.AgeBuckets | src/components/admin/EventFeed.tsx:47-56 | the four labels split elapsed time into disjoint ranges at one minute, one hour and one day, and show the whole number of units elapsed |
| EventFeed.TimeAgoText | src/components/admin/EventFeed.tsx:47-56 | the label text for each range, "just now" for the future, and "NaNd ago" for an unparseable date |
| EventFeed.TimeAgo | src/components/admin/EventFeed.tsx:47-56 | the label is "just now" exactly for less than a minute elapsed, and "NaNd ago" exactly for an unparseable date |
| EventFeed.RenderAgeInjective | src/components/admin/EventFeed.tsx:49-55 | different ages never show the same label |
| EventFeed.FirstNonEmpty | src/components/admin/EventFeed.tsx:59 | the `\|\|` chain yields the first present non-empty candidate, and nothing only when there is none |
| EventFeed.EventLink | src/components/admin/EventFeed.tsx:58-60 | the link is the first present non-empty field of url, issue url and repository url, and none only when there is none |
| EventFeed.EventLinkPriority | src/components/admin/EventFeed.tsx:58-60 | the link is the url, else the issue url, else the repository url, else none |
| EventFeed.FilterEvents | src/components/admin/EventFeed.tsx:95-97 | `all` shows every event; any other filter shows only events of that provider |
| EventFeed.KeepProvider | src/components/admin/EventFeed.tsx:97 | the filtered list is no longer than the list and holds only events of the chosen provider |
| EventFeed.KeepProviderAppend | src/components/admin/EventFeed.tsx:97 | filtering keeps the order of the list |
| EventFeed.KeepProviderCounts | src/components/admin/EventFeed.tsx:97 | filtering keeps every matching event as often as it occurs and drops every other |
| EventFeed.SeverityIcon | src/components/admin/EventFeed.tsx:145 | a known severity gets its icon; an unknown one gets the info icon |
| EventFeed.SeverityIconFallback | src/components/admin/EventFeed.tsx:145 | the info icon is shown exactly for `info` and for severities the table does not know |
| EventFeed.ProviderStyle | src/components/admin/EventFeed.tsx:152 | a known provider gets its badge style; an unknown one gets the neutral style |
| EventFeed.ProviderStyleFallback | src/components/admin/EventFeed.tsx:152 | the neutral badge is shown exactly for providers the table does not know |
| QaChecklist.Passed | src/components/admin/QAModal.tsx:31 | the passed count is between 0 and 12 |
| QaChecklist.Toggle | src/components/admin/QAModal.tsx:34 | toggling flips the chosen key and leaves every other key unchanged |
| QaChecklist.ToggleTwice | src/components/admin/QAModal.tsx:34 | toggling a key twice restores how every key reads |
| QaChecklist.ToggleMovesCount | src/components/admin/QAModal.tsx:31-34 | toggling one of a list of distinct keys moves its count by exactly one |
| QaChecklist.TogglePassed | src/components/admin/QAModal.tsx:31-34 | ticking an item raises `passed` by one, unticking lowers it by one, and a key outside the twelve items leaves it unchanged |
| QaChecklist.AfterToggle | src/components/admin/QAModal.tsx:33-49 | a save that throws restores the previous checks; otherwise the toggled key stays flipped and every other key keeps its value |
| QaChecklist.AfterTogglePassed | src/components/admin/QAModal.tsx:31-49 | after a toggle settles, `passed` is unchanged if the save threw, and otherwise has moved by one for an item and not at all for any other key |
| QaChecklist.Percent | src/components/admin/QAModal.tsx:68 | the percentage is the nearest whole number to `passed / 12 * 100`, within half a point |
| QaChecklist.PercentClosedForm | src/components/admin/QAModal.tsx:68 | the percentage is `(25 * passed + 1) / 3` rounded down; it is 0 only for none passed and 100 only for all passed |
| QaChecklist.NoTies | src/components/admin/QAModal.tsx:68 | the exact percentage is never halfway between two whole numbers |
| QaChecklist.PercentMonotone | src/components/admin/QAModal.tsx:68 | more passed items never show a lower percentage |

## Left out

- Building the Supabase clients and moving cookies between request and
  response. These are library calls; only the middleware's decision is
  modelled.
- The middleware matcher pattern. It is a router configuration, not logic
  of the program.
- The database. Each route is modelled up to the command it issues; the
  result comes in as a parameter. Row-level security, unique constraints and
  the `create_module` procedure are represented by that result.
- `GET /api/events` and the summary route, including health metrics and
  the summary cache. They are outside this model.
- React rendering, state hooks and `fetch`. Form edits are a sequence of
  events; a save either throws or not.
- The admin layout's own sign-in check (`getUser` and a redirect to
  `/login` when nobody is signed in), which repeats the middleware's guard
  on the server, and the overview page's own `getUser` call; both depend on
  the session service.
- The sidebar's sign-out button and its active-link highlight (exact match
  for `/admin`, prefix match otherwise), and the data the admin pages
  render; these are presentation and session calls.
- EventFeed.TimeAgo: date parsing and the clock are left out. The input is
  the elapsed milliseconds, or none when the date cannot be parsed.
- JsText.Lower: only ASCII letters are lower-cased. Full Unicode case
  mapping is not modelled.
- QaChecklist.Percent: computed with exact integers rather than
  floating-point division and `Math.round`. `NoTies` shows that the exact
  value is never halfway between two whole numbers, so small floating-point
  errors do not change the result.
- EventFeed.SeverityIcon: the table is an object literal, so a severity
  such as `constructor` finds an inherited `Object.prototype` member
  instead of the info icon. The model treats every name outside the four
  keys as unknown.
- EventFeed.ProviderStyle: likewise, a provider such as `toString` finds
  an inherited function instead of the neutral style. The model treats
  every name outside the four keys as unknown.
- ClientsRoute.Get: the command asks for newest-first order, but the order
  of the rows the database returns is not checked. They are relayed as
  they come.
- JsValues.JsValue: numbers are integers. Fractional JSON numbers and
  property names inherited from `Object.prototype` are not modelled.
- Exceptions thrown by the Supabase client library itself are not modelled.
  Only errors it returns as values are.
- RouteGuard.Guard: the redirect response is modelled without the refreshed
  session cookies. The source's redirect does not copy them over either.
- NewProjectForm.NameChanged: reads the edited flag when the change
  happens. React's stale-closure timing is not modelled.
- The width of the QA progress bar. It is the unrounded percentage and is
  used only for styling.
- The serialisation of `undefined` fields into JSON. Response bodies are
  kept as values.

=== FILE: blockers_route.dfy ===
/** `POST` and `PATCH /api/blockers` (src/app/api/blockers/route.ts): create
    a blocker and change its status. Neither `waiting_on` nor `status` is
    checked against its enumeration here; any truthy value is passed on.
    The stored row is answered through `Http.Relay`, with 201 after `POST` and 200 after `PATCH`. */
module BlockersRoute {
  import opened Optional
  import opened JsText
  import opened JsValues
  import opened Http

  /** `insert into blockers (project_id, title, waiting_on)`. */
  datatype InsertBlocker = InsertBlocker(projectId: JsValue, title: string, waitingOn: JsValue)

  /** `update blockers set <changes> where id = …`. */
  datatype UpdateBlocker = UpdateBlocker(id: JsValue, changes: map<string, JsValue>)

  const PostFieldsRequired := "project_id, title, and waiting_on are required"
  const PatchFieldsRequired := "id and status are required"

  ghost predicate AcceptablePost(body: Option<JsValue>) {
    && body.Some?
    && CanDestructure(body.value)
    && Truthy(Member(body.value, "project_id"))
    && Member(body.value, "title").Str? && !IsBlank(Member(body.value, "title").s)
    && Truthy(Member(body.value, "waiting_on"))
  }

  /** `POST` validation: `!project_id || !title?.trim() || !waiting_on`. */
  function PlanPost(body: Option<JsValue>): (p: Plan<InsertBlocker>)
    ensures p.Reject? ==> p.response == InvalidRequest || p.response == ErrorResponse(400, PostFieldsRequired)
    ensures p == Reject(InvalidRequest) <==>
              || body.None? || !CanDestructure(body.value)
              || (Truthy(Member(body.value, "project_id")) && OptionalTrim(Member(body.value, "title")).NotAString?)
    ensures p.Issue? <==> AcceptablePost(body)
    ensures p.Issue? ==>
              && p.command.projectId == Member(body.value, "project_id")
              && p.command.title == Trim(Member(body.value, "title").s)
              && p.command.waitingOn == Member(body.value, "waiting_on")
  {
    DiffersFromInvalidRequest(PostFieldsRequired);
    if body.None? || !CanDestructure(body.value) then Reject(InvalidRequest)
    else
      var v := body.value;
      if !Truthy(Member(v, "project_id")) then Reject(ErrorResponse(400, PostFieldsRequired))
      else
        match OptionalTrim(Member(v, "title"))
        case NotAString => Reject(InvalidRequest)
        case Blank => Reject(ErrorResponse(400, PostFieldsRequired))
        case Text(title) =>
          if !Truthy(Member(v, "waiting_on")) then Reject(ErrorResponse(400, PostFieldsRequired))
          else Issue(InsertBlocker(Member(v, "project_id"), title, Member(v, "waiting_on")))
  }

  /** `PATCH` validation: `!id || !status`; the update touches only `status`. */
  function PlanPatch(body: Option<JsValue>): (p: Plan<UpdateBlocker>)
    ensures p.Reject? ==> p.response == InvalidRequest || p.response == ErrorResponse(400, PatchFieldsRequired)
    ensures p == Reject(InvalidRequest) <==> body.None? || !CanDestructure(body.value)
    ensures p.Issue? <==>
              body.Some? && CanDestructure(body.value)
              && Truthy(Member(body.value, "id")) && Truthy(Member(body.value, "status"))
    ensures p.Issue? ==>
              && p.command.id == Member(body.value, "id")
              && p.command.changes.Keys == {"status"}
              && p.command.changes["status"] == Member(body.value, "status")
  {
    DiffersFromInvalidRequest(PatchFieldsRequired);
    if body.None? || !CanDestructure(body.value) then Reject(InvalidRequest)
    else
      var v := body.value;
      if !Truthy(Member(v, "id")) || !Truthy(Member(v, "status")) then Reject(ErrorResponse(400, PatchFieldsRequired))
      else Issue(UpdateBlocker(Member(v, "id"), map["status" := Member(v, "status")]))
  }

  /** The whole `POST` handler; `db` is the insert's outcome if it is issued.
      A blocker is answered with 201 exactly when the request was acceptable
      and the insert succeeded. */
  function Post(body: Option<JsValue>, db: DbResult<JsValue>): (r: Response)
    ensures AcceptablePost(body) ==> r == Relay(201, db)
    ensures !AcceptablePost(body) ==> r == InvalidRequest || r == ErrorResponse(400, PostFieldsRequired)
    ensures r.status == 201 <==> AcceptablePost(body) && db.DbOk?
    ensures body.Some? && CanDestructure(body.value) && !Truthy(Member(body.value, "waiting_on")) ==>
              r.status == 400
  {
    match PlanPost(body)
    case Reject(response) => response
    case Issue(_) => Relay(201, db)
  }

  /** The whole `PATCH` handler; `db` is the update's outcome if it is
      issued. The updated row is answered with 200 exactly when id and status
      were given and the update succeeded. */
  function Patch(body: Option<JsValue>, db: DbResult<JsValue>): (r: Response)
    ensures PlanPatch(body).Issue? ==> r == Relay(200, db)
    ensures PlanPatch(body).Reject? ==> r == InvalidRequest || r == ErrorResponse(400, PatchFieldsRequired)
    ensures r.status == 200 <==>
              && body.Some? && CanDestructure(body.value)
              && Truthy(Member(body.value, "id")) && Truthy(Member(body.value, "status"))
              && db.DbOk?
  {
    match PlanPatch(body)
    case Reject(response) => response
    case Issue(_) => Relay(200, db)
  }

  /** Any truthy `waiting_on` is accepted, not only `client` and `team`. */
  lemma WaitingOnNotValidated(projectId: JsValue, title: string, waitingOn: JsValue)
    requires Truthy(projectId) && !IsBlank(title) && Truthy(waitingOn)
    ensures var body := Some(Obj(map["project_id" := projectId, "title" := Str(title), "waiting_on" := waitingOn]));
            PlanPost(body) == Issue(InsertBlocker(projectId, Trim(title), waitingOn))
  {
    var v := Obj(map["project_id" := projectId, "title" := Str(title), "waiting_on" := waitingOn]);
    assert Member(v, "project_id") == projectId;
    assert Member(v, "title") == Str(title);
    assert Member(v, "waiting_on") == waitingOn;
  }
}

=== FILE: client_auth_route.dfy ===
/** `POST /api/client/auth` (src/app/api/client/auth/route.ts): checks a
    client's shared dashboard password and, on success, sets the
    `client_session` cookie. */
module ClientAuthRoute {
  import opened Optional
  import opened JsValues
  import opened Http

  /** `select id, client_password from projects where client_slug = slug`. */
  datatype Lookup = Lookup(slug: JsValue)

  /** The selected row: the project id and its nullable stored password. */
  datatype AuthRow = AuthRow(id: string, clientPassword: Option<string>)

  const FieldsRequired := "slug and password are required"
  const InvalidPassword := "Invalid password"

  const SessionCookieName := "client_session"
  const SessionCookiePath := "/client"

  /** One day, in seconds. */
  const SessionMaxAge := 86400

  /** Validation: both fields must be truthy; nothing is looked up otherwise. */
  function PlanAuth(body: Option<JsValue>): (p: Plan<Lookup>)
    ensures p.Reject? ==> p.response == InvalidRequest || p.response == ErrorResponse(400, FieldsRequired)
    ensures p == Reject(InvalidRequest) <==> body.None? || !CanDestructure(body.value)
    ensures p.Issue? <==>
              body.Some? && CanDestructure(body.value)
              && Truthy(Member(body.value, "slug")) && Truthy(Member(body.value, "password"))
    ensures p.Issue? ==> p.command.slug == Member(body.value, "slug")
  {
    DiffersFromInvalidRequest(FieldsRequired);
    if body.None? || !CanDestructure(body.value) then Reject(InvalidRequest)
    else
      var slug := Member(body.value, "slug");
      var password := Member(body.value, "password");
      if !Truthy(slug) || !Truthy(password) then Reject(ErrorResponse(400, FieldsRequired))
      else Issue(Lookup(slug))
  }

  /** A nullable text column as the JavaScript value the client library
      returns for it. */
  function ColumnAsJs(column: Option<string>): JsValue {
    if column.Some? then Str(column.value) else Null
  }

  /** `project.client_password !== password` is false. */
  predicate PasswordMatches(stored: Option<string>, supplied: JsValue) {
    StrictEquals(ColumnAsJs(stored), supplied)
  }

  /** Access is granted only on exact equality with a stored password: no
      trimming, no case folding, and a null stored password never matches a
      supplied (truthy) one. */
  lemma PasswordMatchIsExact(stored: Option<string>, supplied: JsValue)
    requires Truthy(supplied)
    ensures PasswordMatches(stored, supplied) <==> stored.Some? && supplied == Str(stored.value)
  {
  }

  function SessionCookie(projectId: string): (c: Cookie)
    ensures c.name == "client_session" && c.value == projectId
    ensures c.httpOnly && c.path == "/client" && c.maxAge == 24 * 60 * 60
  {
    Cookie(SessionCookieName, projectId, true, SessionCookiePath, SessionMaxAge)
  }

  /** Maps the lookup's outcome to the response; `password` is the supplied
      password. */
  function RespondAuth(password: JsValue, result: DbResult<Option<AuthRow>>): (r: Response)
    ensures r.status == 200 || r == ErrorResponse(401, InvalidPassword)
    ensures r.status == 200 <==>
              result.DbOk? && result.data.Some? && PasswordMatches(result.data.value.clientPassword, password)
    ensures r.cookie.Some? <==> r.status == 200
    ensures r.status == 200 ==>
              var id := result.data.value.id;
              && r.cookie == Some(SessionCookie(id))
              && r.body == Obj(map["success" := Bool(true), "projectId" := Str(id)])
  {
    match result
    case DbError(_, _) => ErrorResponse(401, InvalidPassword)
    case DbOk(None) => ErrorResponse(401, InvalidPassword)
    case DbOk(Some(project)) =>
      if !PasswordMatches(project.clientPassword, password) then ErrorResponse(401, InvalidPassword)
      else
        var body := Obj(map["success" := Bool(true), "projectId" := Str(project.id)]);
        Response(200, body, Some(SessionCookie(project.id)))
  }

  /** The whole handler; `db` is the lookup's outcome if it is issued. */
  function Auth(body: Option<JsValue>, db: DbResult<Option<AuthRow>>): (r: Response)
    ensures r.status == 200 || r.status == 400 || r == ErrorResponse(401, InvalidPassword)
    ensures r.status == 400 <==> PlanAuth(body).Reject?
    ensures r.status == 200 <==>
              && PlanAuth(body).Issue? && db.DbOk? && db.data.Some?
              && PasswordMatches(db.data.value.clientPassword, Member(body.value, "password"))
    ensures r.cookie.Some? ==> r.status == 200 && PlanAuth(body).Issue?
  {
    match PlanAuth(body)
    case Reject(response) => response
    case Issue(_) => RespondAuth(Member(body.value, "password"), db)
  }

  /** An unknown slug, a failed lookup and a wrong password give the same
      response, so a caller cannot tell them apart. */
  lemma FailuresIndistinguishable(password: JsValue, code: string, message: string, row: AuthRow)
    requires !PasswordMatches(row.clientPassword, password)
    ensures RespondAuth(password, DbOk(None)) == RespondAuth(password, DbError(code, message))
    ensures RespondAuth(password, DbOk(Some(row))) == RespondAuth(password, DbOk(None))
  {
  }

  /** The cookie is set exactly when the supplied password equals the stored
      one, and then carries the project id. */
  lemma {:induction false} CookieOnlyOnExactMatch(body: Option<JsValue>, db: DbResult<Option<AuthRow>>)
    ensures Auth(body, db).cookie.Some? <==>
              && PlanAuth(body).Issue?
              && db.DbOk? && db.data.Some? && db.data.value.clientPassword.Some?
              && Member(body.value, "password") == Str(db.data.value.clientPassword.value)
    ensures Auth(body, db).cookie.Some? ==> Auth(body, db).cookie.value.value == db.data.value.id
  {
    if PlanAuth(body).Issue? {
      PasswordMatchIsExact(
        if db.DbOk? && db.data.Some? then db.data.value.clientPassword else None,
        Member(body.value, "password"));
    }
  }
}

=== FILE: clients_route.dfy ===
/** `GET`, `POST` and `DELETE /api/clients` (src/app/api/clients/route.ts):
    the client records of a project. Records are always returned through a
    fixed column list that leaves out the password. `GET` answers through
    `Http.Relay` with 200 and `POST` with 201. */
module ClientsRoute {
  import opened Optional
  import opened JsText
  import opened JsValues
  import opened Http

  /** The columns every read and insert of `project_clients` returns. */
  const ClientColumns: seq<string> := ["id", "project_id", "name", "email", "created_at"]

  /** `select <columns> from project_clients where project_id = … order by
      <orderBy> asc|desc`. */
  datatype SelectClients = SelectClients(projectId: string, columns: seq<string>, orderBy: string, ascending: bool)

  /** `insert into project_clients … returning <columns>`. */
  datatype InsertClient = InsertClient(
    projectId: JsValue,
    name: string,
    email: Option<string>,
    password: string,
    columns: seq<string>)

  /** `delete from project_clients where id = …`. */
  datatype DeleteClient = DeleteClient(id: string)

  const ProjectIdRequired := "project_id is required"
  const FieldsRequired := "project_id, name, and password are required"
  const IdRequired := "id is required"

  /** `GET`: a missing or empty `project_id` query parameter is rejected. */
  function PlanGet(projectId: Option<string>): (p: Plan<SelectClients>)
    ensures p.Reject? <==> projectId.None? || projectId.value == []
    ensures p.Reject? ==> p.response == ErrorResponse(400, ProjectIdRequired)
    ensures p.Issue? ==> p.command.projectId == projectId.value && p.command.columns == ClientColumns
    ensures p.Issue? ==> p.command.orderBy == "created_at" && !p.command.ascending
  {
    if projectId.None? || projectId.value == [] then Reject(ErrorResponse(400, ProjectIdRequired))
    else Issue(SelectClients(projectId.value, ClientColumns, "created_at", false))
  }

  /** The request passes every check of `POST` and reaches the insert. */
  ghost predicate AcceptablePost(body: Option<JsValue>) {
    && body.Some?
    && CanDestructure(body.value)
    && Truthy(Member(body.value, "project_id"))
    && Member(body.value, "name").Str? && !IsBlank(Member(body.value, "name").s)
    && Member(body.value, "password").Str? && !IsBlank(Member(body.value, "password").s)
    && (IsNullish(Member(body.value, "email")) || Member(body.value, "email").Str?)
  }

  /** `POST` validation: `!project_id || !name?.trim() || !password?.trim()`
      and the normalised row. */
  function PlanPost(body: Option<JsValue>): (p: Plan<InsertClient>)
    ensures p.Reject? ==> p.response == InvalidRequest || p.response == ErrorResponse(400, FieldsRequired)
    ensures p == Reject(InvalidRequest) <==>
              || body.None? || !CanDestructure(body.value)
              || (&& Truthy(Member(body.value, "project_id"))
                  && var name := OptionalTrim(Member(body.value, "name"));
                     var password := OptionalTrim(Member(body.value, "password"));
                     || name.NotAString?
                     || (name.Text? && password.NotAString?)
                     || (name.Text? && password.Text? && OptionalTrim(Member(body.value, "email")).NotAString?))
    ensures p.Issue? <==> AcceptablePost(body)
    ensures p.Issue? ==>
              var v := body.value;
              && p.command.projectId == Member(v, "project_id")
              && p.command.name == Trim(Member(v, "name").s)
              && p.command.password == Trim(Member(v, "password").s)
              && (p.command.email.Some? <==> Member(v, "email").Str? && !IsBlank(Member(v, "email").s))
              && (p.command.email.Some? ==> p.command.email.value == Trim(Member(v, "email").s))
              && p.command.columns == ClientColumns
  {
    DiffersFromInvalidRequest(FieldsRequired);
    if body.None? || !CanDestructure(body.value) then Reject(InvalidRequest)
    else
      var v := body.value;
      if !Truthy(Member(v, "project_id")) then Reject(ErrorResponse(400, FieldsRequired))
      else
        match OptionalTrim(Member(v, "name"))
        case NotAString => Reject(InvalidRequest)
        case Blank => Reject(ErrorResponse(400, FieldsRequired))
        case Text(name) =>
          match OptionalTrim(Member(v, "password"))
          case NotAString => Reject(InvalidRequest)
          case Blank => Reject(ErrorResponse(400, FieldsRequired))
          case Text(password) =>
            match OptionalTrim(Member(v, "email"))
            case NotAString => Reject(InvalidRequest)
            case Blank => Issue(InsertClient(Member(v, "project_id"), name, None, password, ClientColumns))
            case Text(email) => Issue(InsertClient(Member(v, "project_id"), name, Some(email), password, ClientColumns))
  }

  /** `DELETE`: a missing or empty `id` query parameter is rejected. */
  function PlanDelete(id: Option<string>): (p: Plan<DeleteClient>)
    ensures p.Reject? <==> id.None? || id.value == []
    ensures p.Reject? ==> p.response == ErrorResponse(400, IdRequired)
    ensures p.Issue? ==> p.command.id == id.value
  {
    if id.None? || id.value == [] then Reject(ErrorResponse(400, IdRequired))
    else Issue(DeleteClient(id.value))
  }

  function RespondDelete(result: DbResult<JsValue>): (r: Response)
    ensures result.DbError? ==> r == StorageError(result.message)
    ensures result.DbOk? ==> r == Ok(200, Obj(map["success" := Bool(true)]))
  {
    match result
    case DbError(_, message) => StorageError(message)
    case DbOk(_) => Ok(200, Obj(map["success" := Bool(true)]))
  }

  /** The whole `GET` handler; `db` is the select's outcome if it is issued.
      The records are answered with 200 exactly when a project id was given
      and the select succeeded. */
  function Get(projectId: Option<string>, db: DbResult<JsValue>): (r: Response)
    ensures projectId.None? || projectId.value == [] ==> r == ErrorResponse(400, ProjectIdRequired)
    ensures projectId.Some? && projectId.value != [] ==> r == Relay(200, db)
    ensures r.status == 200 <==> projectId.Some? && projectId.value != [] && db.DbOk?
  {
    match PlanGet(projectId)
    case Reject(response) => response
    case Issue(_) => Relay(200, db)
  }

  /** The whole `POST` handler; `db` is the insert's outcome if it is issued.
      The new record is answered with 201 exactly when the request was
      acceptable and the insert succeeded. */
  function Post(body: Option<JsValue>, db: DbResult<JsValue>): (r: Response)
    ensures AcceptablePost(body) ==> r == Relay(201, db)
    ensures !AcceptablePost(body) ==> r == InvalidRequest || r == ErrorResponse(400, FieldsRequired)
    ensures r.status == 201 <==> AcceptablePost(body) && db.DbOk?
    ensures body.Some? && CanDestructure(body.value) && !Truthy(Member(body.value, "project_id")) ==>
              r == ErrorResponse(400, FieldsRequired)
  {
    match PlanPost(body)
    case Reject(response) => response
    case Issue(_) => Relay(201, db)
  }

  /** The whole `DELETE` handler; `db` is the delete's outcome if it is
      issued. */
  function Delete(id: Option<string>, db: DbResult<JsValue>): (r: Response)
    ensures id.None? || id.value == [] ==> r == ErrorResponse(400, IdRequired)
    ensures id.Some? && id.value != [] ==> r == RespondDelete(db)
    ensures r.status == 200 <==> id.Some? && id.value != [] && db.DbOk?
  {
    match PlanDelete(id)
    case Reject(response) => response
    case Issue(_) => RespondDelete(db)
  }

  /** A record restricted to the given columns. */
  ghost predicate RecordWithin(v: JsValue, columns: seq<string>) {
    v.Obj? && forall k :: k in v.fields ==> k in columns
  }

  /** What the database returns when it honours a column list: one record or
      a list of records, each restricted to those columns. */
  ghost predicate DataWithin(data: JsValue, columns: seq<string>) {
    || RecordWithin(data, columns)
    || (data.Arr? && forall i :: 0 <= i < |data.items| ==> RecordWithin(data.items[i], columns))
  }

  /** No record in a response body carries a `password` field. */
  ghost predicate NoPasswordField(body: JsValue) {
    && (body.Obj? ==> "password" !in body.fields)
    && (body.Arr? ==> forall i :: 0 <= i < |body.items| ==> body.items[i].Obj? ==> "password" !in body.items[i].fields)
  }

  lemma PasswordNotAClientColumn()
    ensures "password" !in ClientColumns
  {
  }

  /** Whatever `GET` or `POST` returns on success, it never exposes the
      password column, as long as the database honours the column list the
      handler asked for. */
  lemma ReadsNeverExposePassword(projectId: Option<string>, body: Option<JsValue>, data: JsValue)
    ensures PlanGet(projectId).Issue? && DataWithin(data, PlanGet(projectId).command.columns)
            ==> NoPasswordField(Get(projectId, DbOk(data)).body)
    ensures PlanPost(body).Issue? && DataWithin(data, PlanPost(body).command.columns)
            ==> NoPasswordField(Post(body, DbOk(data)).body)
  {
    PasswordNotAClientColumn();
  }
}

=== FILE: decimal.dfy ===
/** Decimal rendering of non-negative integers, as a template literal
    `${n}` prints an integral JavaScript number. */
module Decimal {

  predicate IsDigit(c: char) {
    '0' <= c <= '9'
  }

  predicate AllDigits(s: string) {
    forall i :: 0 <= i < |s| ==> IsDigit(s[i])
  }

  function DigitChar(d: nat): (c: char)
    requires d < 10
    ensures IsDigit(c)
    ensures c as int - '0' as int == d
  {
    ('0' as int + d) as char
  }

  /** The shortest decimal numeral of `n`. */
  function NatToString(n: nat): (r: string)
    ensures |r| >= 1
    ensures AllDigits(r)
    ensures n > 0 ==> r[0] != '0'
    ensures |r| == 1 || r[0] != '0'
  {
    if n < 10 then [DigitChar(n)] else NatToString(n / 10) + [DigitChar(n % 10)]
  }

  /** The value of a numeral: the independent reading of what was printed. */
  function DigitsValue(s: string): nat
    requires AllDigits(s)
  {
    if s == [] then 0
    else DigitsValue(s[..|s| - 1]) * 10 + (s[|s| - 1] as int - '0' as int)
  }

  /** Reading back a printed number gives the number. */
  lemma {:induction false} NatToStringRoundTrip(n: nat)
    ensures DigitsValue(NatToString(n)) == n
  {
    var r := NatToString(n);
    if n >= 10 {
      NatToStringRoundTrip(n / 10);
      assert r[..|r| - 1] == NatToString(n / 10);
    }
  }

  /** Different numbers print differently. */
  lemma NatToStringInjective(a: nat, b: nat)
    ensures NatToString(a) == NatToString(b) ==> a == b
  {
    NatToStringRoundTrip(a);
    NatToStringRoundTrip(b);
  }
}

=== FILE: event_feed.dfy ===
/** The pure helpers of the admin event feed
    (src/components/admin/EventFeed.tsx): relative-time labels, the link of an
    event, the provider filter, and the icon and badge lookups with their
    fallbacks. */
module EventFeed {
  import opened Optional
  import opened Decimal

  /** The link fields an integration may put in an event's metadata. */
  datatype EventMetadata = EventMetadata(url: Option<string>, issueUrl: Option<string>, repoUrl: Option<string>)

  datatype Event = Event(
    id: string,
    projectId: string,
    provider: string,
    eventType: string,
    severity: string,
    title: string,
    metadata: EventMetadata,
    createdAt: string)

  // ---------------------------------------------------------------- timeAgo

  const MsPerMinute := 60 * 1000
  const MsPerHour := 60 * MsPerMinute
  const MsPerDay := 24 * MsPerHour

  /** The bucket `timeAgo` puts an elapsed time in. `InvalidDate` is an
      unparseable timestamp, for which every comparison with NaN fails. */
  datatype Age = JustNow | MinutesAgo(minutes: nat) | HoursAgo(hours: nat) | DaysAgo(days: nat) | InvalidDate

  /** `timeAgo` up to the final text, on the elapsed milliseconds
      `Date.now() - new Date(dateStr).getTime()`. Each step is
      `Math.floor` of a division by a positive constant, which is Dafny's
      `/` on integers; a future timestamp has a negative elapsed time. */
  function AgeOf(elapsedMs: Option<int>): Age {
    if elapsedMs.None? then InvalidDate
    else
      var seconds := elapsedMs.value / 1000;
      if seconds < 60 then JustNow
      else
        var minutes := seconds / 60;
        if minutes < 60 then MinutesAgo(minutes)
        else
          var hours := minutes / 60;
          if hours < 24 then HoursAgo(hours)
          else DaysAgo(hours / 24)
  }

  /** The buckets are disjoint, cover every elapsed time, and each one shows
      the whole number of units that have passed. */
  lemma AgeBuckets(ms: int)
    ensures ms < MsPerMinute <==> AgeOf(Some(ms)) == JustNow
    ensures MsPerMinute <= ms < MsPerHour <==> AgeOf(Some(ms)).MinutesAgo?
    ensures MsPerHour <= ms < MsPerDay <==> AgeOf(Some(ms)).HoursAgo?
    ensures MsPerDay <= ms <==> AgeOf(Some(ms)).DaysAgo?
    ensures AgeOf(Some(ms)).MinutesAgo? ==>
              var m := AgeOf(Some(ms)).minutes;
              1 <= m <= 59 && m * MsPerMinute <= ms < (m + 1) * MsPerMinute && m == ms / MsPerMinute
    ensures AgeOf(Some(ms)).HoursAgo? ==>
              var h := AgeOf(Some(ms)).hours;
              1 <= h <= 23 && h * MsPerHour <= ms < (h + 1) * MsPerHour && h == ms / MsPerHour
    ensures AgeOf(Some(ms)).DaysAgo? ==>
              var d := AgeOf(Some(ms)).days;
              1 <= d && d * MsPerDay <= ms < (d + 1) * MsPerDay && d == ms / MsPerDay
  {
    var s := ms / 1000;
    assert 1000 * s <= ms < 1000 * s + 1000;
    var m := s / 60;
    assert 60 * m <= s < 60 * m + 60;
    assert 60000 * m <= ms < 60000 * m + 60000;
    var h := m / 60;
    assert 60 * h <= m < 60 * h + 60;
    assert 3600000 * h <= ms < 3600000 * h + 3600000;
    var d := h / 24;
    assert 24 * d <= h < 24 * d + 24;
    assert 86400000 * d <= ms < 86400000 * d + 86400000;
  }

  /** The text `timeAgo` shows for a bucket. */
  function RenderAge(a: Age): string {
    match a
    case JustNow => "just now"
    case MinutesAgo(m) => NatToString(m) + "m ago"
    case HoursAgo(h) => NatToString(h) + "h ago"
    case DaysAgo(d) => NatToString(d) + "d ago"
    case InvalidDate => "NaNd ago"
  }

  /** `timeAgo(dateStr)`, with the clock and the date parsing turned into the
      elapsed time. */
  function TimeAgo(elapsedMs: Option<int>): (r: string)
    ensures r == "just now" <==> elapsedMs.Some? && elapsedMs.value < MsPerMinute
    ensures r == "NaNd ago" <==> elapsedMs.None?
  {
    RenderAgeUnit(AgeOf(elapsedMs));
    AgeBuckets(if elapsedMs.Some? then elapsedMs.value else 0);
    RenderAge(AgeOf(elapsedMs))
  }

  lemma {:induction false} RenderAgeUnit(a: Age)
    ensures var s := RenderAge(a);
            && |s| >= 6
            && (a.JustNow? <==> s[|s| - 1] == 'w')
            && (a.MinutesAgo? <==> s[|s| - 1] == 'o' && s[|s| - 5] == 'm')
            && (a.HoursAgo? <==> s[|s| - 1] == 'o' && s[|s| - 5] == 'h')
            && (a.DaysAgo? || a.InvalidDate? <==> s[|s| - 1] == 'o' && s[|s| - 5] == 'd')
            && (a.InvalidDate? <==> s[0] == 'N')
  {
    match a
    case JustNow =>
    case MinutesAgo(m) =>
    case HoursAgo(h) =>
    case DaysAgo(d) => assert RenderAge(a)[0] == NatToString(d)[0];
    case InvalidDate =>
  }

  lemma NumberBeforeUnit(n: nat, unit: string)
    requires |unit| == 5
    ensures (NatToString(n) + unit)[..|NatToString(n) + unit| - 5] == NatToString(n)
  {
  }

  /** The label determines the bucket and its number: different ages never
      show the same text. */
  lemma RenderAgeInjective(a: Age, b: Age)
    requires RenderAge(a) == RenderAge(b)
    ensures a == b
  {
    RenderAgeUnit(a);
    RenderAgeUnit(b);
    match a
    case MinutesAgo(m) =>
      NumberBeforeUnit(m, "m ago");
      NumberBeforeUnit(b.minutes, "m ago");
      NatToStringInjective(m, b.minutes);
    case HoursAgo(h) =>
      NumberBeforeUnit(h, "h ago");
      NumberBeforeUnit(b.hours, "h ago");
      NatToStringInjective(h, b.hours);
    case DaysAgo(d) =>
      NumberBeforeUnit(d, "d ago");
      NumberBeforeUnit(b.days, "d ago");
      NatToStringInjective(d, b.days);
    case JustNow =>
    case InvalidDate =>
  }

  /** `timeAgo` shows "just now" for anything under a minute, a future
      timestamp included, and otherwise the whole number of minutes, hours or
      days; an unparseable timestamp shows "NaNd ago". */
  lemma TimeAgoText(ms: int)
    ensures ms < MsPerMinute ==> TimeAgo(Some(ms)) == "just now"
    ensures MsPerMinute <= ms < MsPerHour ==> TimeAgo(Some(ms)) == NatToString(ms / MsPerMinute) + "m ago"
    ensures MsPerHour <= ms < MsPerDay ==> TimeAgo(Some(ms)) == NatToString(ms / MsPerHour) + "h ago"
    ensures MsPerDay <= ms ==> TimeAgo(Some(ms)) == NatToString(ms / MsPerDay) + "d ago"
    ensures TimeAgo(None) == "NaNd ago"
  {
    AgeBuckets(ms);
  }

  // ----------------------------------------------------------- getEventLink

  /** A present, truthy string: `||` skips a missing field and `''`. */
  predicate NonEmpty(o: Option<string>) {
    o.Some? && o.value != []
  }

  /** `r` is what `cands[0] || cands[1] || ... || null` evaluates to: the
      first truthy candidate, or nothing when none is truthy. */
  predicate IsFirstNonEmpty(cands: seq<Option<string>>, r: Option<string>) {
    && (r.None? <==> forall i :: 0 <= i < |cands| ==> !NonEmpty(cands[i]))
    && (r.Some? ==>
          NonEmpty(r)
          && exists i :: 0 <= i < |cands| && cands[i] == r
               && forall j :: 0 <= j < i ==> !NonEmpty(cands[j]))
  }

  /** A falsy head does not change which candidate comes first. */
  lemma SkipFalsyHead(cands: seq<Option<string>>, r: Option<string>)
    requires |cands| > 0 && !NonEmpty(cands[0])
    requires IsFirstNonEmpty(cands[1..], r)
    ensures IsFirstNonEmpty(cands, r)
  {
    if r.Some? {
      var i :| 0 <= i < |cands[1..]| && cands[1..][i] == r
               && forall j :: 0 <= j < i ==> !NonEmpty(cands[1..][j]);
      assert cands[i + 1] == r;
      forall j | 0 <= j < i + 1
        ensures !NonEmpty(cands[j])
      {
        if j > 0 {
          assert cands[j] == cands[1..][j - 1];
        }
      }
    } else {
      forall j | 0 <= j < |cands|
        ensures !NonEmpty(cands[j])
      {
        if j > 0 {
          assert cands[j] == cands[1..][j - 1];
        }
      }
    }
  }

  /** `a || b || ... || null` over optional strings. */
  function FirstNonEmpty(cands: seq<Option<string>>): (r: Option<string>)
    ensures IsFirstNonEmpty(cands, r)
  {
    if cands == [] then None
    else if NonEmpty(cands[0]) then cands[0]
    else
      var r := FirstNonEmpty(cands[1..]);
      SkipFalsyHead(cands, r);
      r
  }

  /** The link fields in priority order. */
  function LinkCandidates(m: EventMetadata): seq<Option<string>> {
    [m.url, m.issueUrl, m.repoUrl]
  }

  /** `getEventLink`: `metadata.url || metadata.issue_url || metadata.repo_url || null`. */
  function EventLink(m: EventMetadata): (r: Option<string>)
    ensures IsFirstNonEmpty(LinkCandidates(m), r)
  {
    FirstNonEmpty(LinkCandidates(m))
  }

  /** The link is the first non-empty field in the order url, issue url,
      repository url, and there is none only when all three are missing or
      empty. */
  lemma EventLinkPriority(m: EventMetadata)
    ensures NonEmpty(m.url) ==> EventLink(m) == m.url
    ensures !NonEmpty(m.url) && NonEmpty(m.issueUrl) ==> EventLink(m) == m.issueUrl
    ensures !NonEmpty(m.url) && !NonEmpty(m.issueUrl) && NonEmpty(m.repoUrl) ==> EventLink(m) == m.repoUrl
    ensures EventLink(m).None? <==> !NonEmpty(m.url) && !NonEmpty(m.issueUrl) && !NonEmpty(m.repoUrl)
  {
    var c := LinkCandidates(m);
    var r := EventLink(m);
    if r.Some? {
      var i :| 0 <= i < 3 && c[i] == r && forall j :: 0 <= j < i ==> !NonEmpty(c[j]);
      assert c[0] == m.url && c[1] == m.issueUrl && c[2] == m.repoUrl;
    } else {
      assert !NonEmpty(c[0]) && !NonEmpty(c[1]) && !NonEmpty(c[2]);
    }
  }

  // -------------------------------------------------------- provider filter

  /** The filter buttons. */
  datatype ProviderFilter = All | GitHub | Sentry | Vercel | BetterUptime

  /** The provider name a filter button compares against. */
  function FilterValue(f: ProviderFilter): string
    requires f != All
  {
    match f
    case GitHub => "github"
    case Sentry => "sentry"
    case Vercel => "vercel"
    case BetterUptime => "betteruptime"
  }

  /** `events.filter((e) => e.provider === provider)`. */
  function KeepProvider(events: seq<Event>, provider: string): (r: seq<Event>)
    ensures |r| <= |events|
    ensures forall i :: 0 <= i < |r| ==> r[i].provider == provider
  {
    if events == [] then []
    else if events[0].provider == provider then [events[0]] + KeepProvider(events[1..], provider)
    else KeepProvider(events[1..], provider)
  }

  /** The list the feed shows for the selected filter. */
  function FilterEvents(events: seq<Event>, f: ProviderFilter): (r: seq<Event>)
    ensures f == All ==> r == events
    ensures f != All ==> forall i :: 0 <= i < |r| ==> r[i].provider == FilterValue(f)
  {
    if f == All then events else KeepProvider(events, FilterValue(f))
  }

  /** The filter keeps order: filtering a concatenation is concatenating the
      filtered parts. */
  lemma {:induction false} KeepProviderAppend(a: seq<Event>, b: seq<Event>, provider: string)
    ensures KeepProvider(a + b, provider) == KeepProvider(a, provider) + KeepProvider(b, provider)
  {
    if a == [] {
      assert a + b == b;
    } else {
      assert (a + b)[1..] == a[1..] + b;
      KeepProviderAppend(a[1..], b, provider);
    }
  }

  /** The filter keeps exactly the matching events, each as often as it
      occurs. */
  lemma {:induction false} KeepProviderCounts(events: seq<Event>, provider: string, e: Event)
    ensures multiset(KeepProvider(events, provider))[e] ==
              if e.provider == provider then multiset(events)[e] else 0
  {
    if events != [] {
      assert events == [events[0]] + events[1..];
      KeepProviderCounts(events[1..], provider, e);
    }
  }

  // ------------------------------------------------------ icons and badges

  const SeverityIcons: map<string, string> := map[
    "success" := "\U{2705}",
    "error" := "\U{274C}",
    "warning" := "\U{26A0}\U{FE0F}",
    "info" := "\U{2139}\U{FE0F}"]

  const ProviderStyles: map<string, string> := map[
    "github" := "bg-white/10 text-white/60",
    "sentry" := "bg-purple-500/20 text-purple-300",
    "vercel" := "bg-white/10 text-white",
    "betteruptime" := "bg-emerald-500/20 text-emerald-300"]

  const DefaultProviderStyle := "bg-white/10 text-white/40"

  /** `SEVERITY_ICON[severity] ?? SEVERITY_ICON.info`. */
  function SeverityIcon(severity: string): (r: string)
    ensures r in SeverityIcons.Values
    ensures severity in SeverityIcons ==> r == SeverityIcons[severity]
    ensures severity !in SeverityIcons ==> r == SeverityIcons["info"]
  {
    if severity in SeverityIcons then SeverityIcons[severity] else SeverityIcons["info"]
  }

  /** `PROVIDER_STYLE[provider] ?? 'bg-white/10 text-white/40'`. */
  function ProviderStyle(provider: string): (r: string)
    ensures r in ProviderStyles.Values || r == DefaultProviderStyle
    ensures provider in ProviderStyles ==> r == ProviderStyles[provider]
    ensures provider !in ProviderStyles ==> r == DefaultProviderStyle
  {
    if provider in ProviderStyles then ProviderStyles[provider] else DefaultProviderStyle
  }

  /** The info icon is shown exactly for `info` and for every severity the
      table does not know. */
  lemma SeverityIconFallback(severity: string)
    ensures SeverityIcon(severity) == SeverityIcons["info"] <==> severity == "info" || severity !in SeverityIcons
  {
  }

  /** The neutral badge is shown exactly for providers the table does not
      know; no known provider shares it. */
  lemma ProviderStyleFallback(provider: string)
    ensures ProviderStyle(provider) == DefaultProviderStyle <==> provider !in ProviderStyles
  {
  }
}

=== FILE: http.dfy ===
/** Responses, cookies and database outcomes shared by the API routes. */
module Http {
  import opened Optional
  import opened JsValues

  /** A `Set-Cookie` with the attributes the application uses (section 4.1
      of RFC 6265): `HttpOnly`, `Path` and `Max-Age` in seconds. */
  datatype Cookie = Cookie(name: string, value: string, httpOnly: bool, path: string, maxAge: int)

  /** `NextResponse.json(body, { status })`, with at most one cookie set. */
  datatype Response = Response(status: int, body: JsValue, cookie: Option<Cookie>)

  /** What the hosted database returns for one command: the selected data, or
      an error with its SQLSTATE code and message. */
  datatype DbResult<+T> = DbOk(data: T) | DbError(code: string, message: string)

  /** The first half of a handler: either a response decided without touching
      storage, or the one storage command to issue. */
  datatype Plan<+C> = Reject(response: Response) | Issue(command: C)

  /** The JSON body `{ error: message }`. */
  function ErrorBody(message: string): JsValue {
    Obj(map["error" := Str(message)])
  }

  function ErrorResponse(status: int, message: string): Response {
    Response(status, ErrorBody(message), None)
  }

  /** The answer of every `catch` block: the body could not be parsed, or a
      field had the wrong type. */
  const InvalidRequest: Response := ErrorResponse(400, "Invalid request")

  /** A storage error surfaced as 500 with the database's own message. */
  function StorageError(message: string): Response {
    ErrorResponse(500, message)
  }

  /** A success response with the given status and data. */
  function Ok(status: int, data: JsValue): Response {
    Response(status, data, None)
  }

  /** The common ending of a handler: the database's data is answered with
      the route's success status, and a database error with 500 and the
      database's message. Nothing is added or dropped on the way. */
  function Relay(successStatus: int, result: DbResult<JsValue>): (r: Response)
    ensures r.cookie.None?
    ensures result.DbOk? ==> r.status == successStatus && r.body == result.data
    ensures result.DbError? ==> r.status == 500 && r.body == ErrorBody(result.message)
  {
    match result
    case DbError(_, message) => StorageError(message)
    case DbOk(data) => Ok(successStatus, data)
  }

  /** With a success status other than 500, the status alone tells a stored
      result from a database error, and the body gives back the data or the
      error message. */
  lemma RelayRecoversResult(successStatus: int, result: DbResult<JsValue>)
    requires successStatus != 500
    ensures Relay(successStatus, result).status == successStatus <==> result.DbOk?
    ensures result.DbOk? ==> Relay(successStatus, result).body == result.data
    ensures result.DbError? ==> Member(Relay(successStatus, result).body, "error") == Str(result.message)
  {
  }

  /** Error responses with different texts are different responses. */
  lemma ErrorResponseInjective(status1: int, message1: string, status2: int, message2: string)
    requires ErrorResponse(status1, message1) == ErrorResponse(status2, message2)
    ensures status1 == status2 && message1 == message2
  {
    assert ErrorBody(message1).fields["error"] == Str(message1);
    assert ErrorBody(message2).fields["error"] == Str(message2);
  }

  /** A 400 with any other message is not the catch-all answer. */
  lemma DiffersFromInvalidRequest(message: string)
    requires message != "Invalid request"
    ensures ErrorResponse(400, message) != InvalidRequest
  {
    if ErrorResponse(400, message) == InvalidRequest {
      ErrorResponseInjective(400, message, 400, "Invalid request");
    }
  }
}

=== FILE: js_text.dfy ===
/** The JavaScript string primitives the application relies on:
    `String.prototype.trim`, the regular-expression class `\s`, and
    `String.prototype.toLowerCase` restricted to ASCII letters. */
module JsText {

  /** The ECMAScript WhiteSpace and LineTerminator code points. This is the set
      that `trim` removes and that `\s` matches in a regular expression. */
  predicate IsSpace(c: char) {
    || c == '\t' || c == '\n' || c == '\U{0B}' || c == '\U{0C}' || c == '\r'
    || c == ' ' || c == '\U{A0}' || c == '\U{1680}'
    || ('\U{2000}' <= c <= '\U{200A}')
    || c == '\U{2028}' || c == '\U{2029}' || c == '\U{202F}' || c == '\U{205F}'
    || c == '\U{3000}' || c == '\U{FEFF}'
  }

  predicate AllSpace(s: string) {
    forall i :: 0 <= i < |s| ==> IsSpace(s[i])
  }

  predicate NoSpace(s: string) {
    forall i :: 0 <= i < |s| ==> !IsSpace(s[i])
  }

  predicate IsUpperAscii(c: char) {
    'A' <= c <= 'Z'
  }

  /** `toLowerCase` on one character: ASCII capitals map to their small letter,
      every other character is left alone. */
  function LowerChar(c: char): (r: char)
    ensures !IsUpperAscii(r)
    ensures IsUpperAscii(c) ==> r as int == c as int + 32
    ensures !IsUpperAscii(c) ==> r == c
  {
    if IsUpperAscii(c) then (c as int + 32) as char else c
  }

  function Lower(s: string): (r: string)
    ensures |r| == |s|
    ensures forall i :: 0 <= i < |s| ==> r[i] == LowerChar(s[i])
  {
    seq(|s|, i requires 0 <= i < |s| => LowerChar(s[i]))
  }

  /** Removes leading white space. */
  function TrimStart(s: string): (r: string)
    ensures |r| <= |s|
    ensures |r| > 0 ==> !IsSpace(r[0])
  {
    if |s| > 0 && IsSpace(s[0]) then TrimStart(s[1..]) else s
  }

  /** Removes trailing white space. */
  function TrimEnd(s: string): (r: string)
    ensures |r| <= |s|
    ensures |r| > 0 ==> !IsSpace(r[|r| - 1])
  {
    if |s| > 0 && IsSpace(s[|s| - 1]) then TrimEnd(s[..|s| - 1]) else s
  }

  /** `TrimStart` returns the suffix of `s` that starts at its first non-space
      character. */
  lemma {:induction false} TrimStartIsSuffix(s: string)
    ensures var r := TrimStart(s); r == s[|s| - |r|..] && AllSpace(s[..|s| - |r|])
  {
    if |s| > 0 && IsSpace(s[0]) {
      TrimStartIsSuffix(s[1..]);
      var r := TrimStart(s);
      assert s[1..][|s| - 1 - |r|..] == s[|s| - |r|..];
      forall i | 0 <= i < |s| - |r|
        ensures IsSpace(s[i])
      {
        if i > 0 {
          assert s[1..][..|s| - 1 - |r|][i - 1] == s[i];
        }
      }
    } else {
      assert s[|s| - |s|..] == s;
    }
  }

  /** `TrimEnd` returns the prefix of `s` that ends at its last non-space
      character. */
  lemma {:induction false} TrimEndIsPrefix(s: string)
    ensures var r := TrimEnd(s); r == s[..|r|] && AllSpace(s[|r|..])
  {
    if |s| > 0 && IsSpace(s[|s| - 1]) {
      TrimEndIsPrefix(s[..|s| - 1]);
      var r := TrimEnd(s);
      assert s[..|s| - 1][..|r|] == s[..|r|];
      assert forall i :: |r| <= i < |s| - 1 ==> s[..|s| - 1][i] == s[i];
    } else {
      assert s[..|s|] == s;
    }
  }

  /** `r` is `s` with some white space cut from its start and its end and
      nothing else changed. */
  predicate CutFromEnds(s: string, r: string) {
    exists i, j :: 0 <= i <= j <= |s| && r == s[i..j] && AllSpace(s[..i]) && AllSpace(s[j..])
  }

  /** `String.prototype.trim`. */
  function Trim(s: string): (r: string)
    ensures |r| <= |s|
    ensures |r| > 0 ==> !IsSpace(r[0]) && !IsSpace(r[|r| - 1])
    ensures r == [] <==> AllSpace(s)
  {
    var t := TrimStart(s);
    TrimStartIsSuffix(s);
    TrimEndIsPrefix(t);
    var r := TrimEnd(t);
    assert r != [] ==> r[0] == t[0];
    assert t == [] ==> AllSpace(s) by {
      if t == [] {
        assert s[..|s|] == s;
      }
    }
    r
  }

  /** The two cut points of `trim`: everything before `i` and from `j` on
      is white space, and what lies between is the result. */
  lemma TrimCutPoints(s: string) returns (i: nat, j: nat)
    ensures i <= j <= |s| && Trim(s) == s[i..j]
    ensures AllSpace(s[..i]) && AllSpace(s[j..])
  {
    var t := TrimStart(s);
    TrimStartIsSuffix(s);
    TrimEndIsPrefix(t);
    var r := TrimEnd(t);
    i := |s| - |t|;
    j := i + |r|;
    assert r == s[i..j];
    assert AllSpace(s[j..]) by {
      forall k | 0 <= k < |s| - j
        ensures IsSpace(s[j..][k])
      {
        assert s[j..][k] == t[|r|..][k];
      }
    }
  }

  /** What `trim` removes is white space at the two ends and nothing else:
      its result is a contiguous piece of the input. Kept apart from `Trim`'s
      own contract so that every use of `Trim` does not carry the existential. */
  lemma TrimCutsFromEnds(s: string)
    ensures CutFromEnds(s, Trim(s))
  {
    var i, j := TrimCutPoints(s);
  }

  /** A JavaScript string is "blank" for `!s.trim()` exactly when it trims to "". */
  predicate IsBlank(s: string) {
    Trim(s) == []
  }

  lemma TrimStartOfSpaceless(s: string)
    requires NoSpace(s)
    ensures TrimStart(s) == s
  {
  }

  lemma TrimEndOfSpaceless(s: string)
    requires NoSpace(s)
    ensures TrimEnd(s) == s
  {
  }

  /** A string without white space is left as it is by `trim`. */
  lemma TrimOfSpaceless(s: string)
    requires NoSpace(s)
    ensures Trim(s) == s
  {
    TrimStartOfSpaceless(s);
    TrimEndOfSpaceless(s);
  }

  lemma {:induction false} TrimStartDropsPrefix(w: string, x: string)
    requires AllSpace(w)
    ensures TrimStart(w + x) == TrimStart(x)
  {
    if w != [] {
      assert (w + x)[1..] == w[1..] + x;
      TrimStartDropsPrefix(w[1..], x);
    } else {
      assert w + x == x;
    }
  }

  lemma {:induction false} TrimEndDropsSuffix(x: string, w: string)
    requires AllSpace(w)
    ensures TrimEnd(x + w) == TrimEnd(x)
  {
    if w != [] {
      var last := |x + w| - 1;
      assert (x + w)[..last] == x + w[..|w| - 1];
      assert (x + w)[last] == w[|w| - 1];
      TrimEndDropsSuffix(x, w[..|w| - 1]);
    } else {
      assert x + w == x;
    }
  }

  /** Trimming first at the start and then at the end of `x + w`, with `w` all
      white space, gives the same as trimming `x`. */
  lemma {:induction false} TrimStartThenEndDropsSuffix(x: string, w: string)
    requires AllSpace(w)
    ensures TrimEnd(TrimStart(x + w)) == TrimEnd(TrimStart(x))
  {
    if x == [] {
      assert x + w == w;
      TrimStartDropsPrefix(w, []);
      assert w + [] == w;
    } else if IsSpace(x[0]) {
      assert (x + w)[1..] == x[1..] + w;
      TrimStartThenEndDropsSuffix(x[1..], w);
    } else {
      assert TrimStart(x + w) == x + w;
      TrimEndDropsSuffix(x, w);
    }
  }

  /** White space around a string does not change what `trim` returns. */
  lemma TrimOfPadded(w1: string, x: string, w2: string)
    requires AllSpace(w1) && AllSpace(w2)
    ensures Trim(w1 + x + w2) == Trim(x)
  {
    assert w1 + x + w2 == w1 + (x + w2);
    TrimStartDropsPrefix(w1, x + w2);
    TrimStartThenEndDropsSuffix(x, w2);
  }

  /** `trim` is idempotent. */
  lemma TrimIdempotent(s: string)
    ensures Trim(Trim(s)) == Trim(s)
  {
    var t := Trim(s);
    if t != [] {
      assert TrimStart(t) == t;
      assert TrimEnd(t) == t;
    }
  }

  /** Lower-casing leaves white space alone and so commutes with padding. */
  lemma LowerOfPadded(w1: string, x: string, w2: string)
    requires AllSpace(w1) && AllSpace(w2)
    ensures Lower(w1 + x + w2) == w1 + Lower(x) + w2
  {
    var l := Lower(w1 + x + w2);
    var r := w1 + Lower(x) + w2;
    assert |l| == |r|;
    forall i | 0 <= i < |l|
      ensures l[i] == r[i]
    {
      if i < |w1| {
        assert (w1 + x + w2)[i] == w1[i];
      } else if i < |w1| + |x| {
        assert (w1 + x + w2)[i] == x[i - |w1|];
      } else {
        assert (w1 + x + w2)[i] == w2[i - |w1| - |x|];
      }
    }
  }

  /** Lower-casing a string with no ASCII capitals changes nothing. */
  lemma LowerOfLower(s: string)
    requires forall i :: 0 <= i < |s| ==> !IsUpperAscii(s[i])
    ensures Lower(s) == s
  {
  }
}

=== FILE: js_values.dfy ===
/** The JavaScript values a route handler reads out of a parsed JSON request
    body, and the few JavaScript operators the handlers apply to them. */
module JsValues {
  import opened JsText

  /** A JavaScript value as produced by `JSON.parse`, plus `undefined`, which
      is what reading an absent property yields. Numbers are abstracted to
      integers. */
  datatype JsValue =
    | Undefined
    | Null
    | Bool(b: bool)
    | Num(n: int)
    | Str(s: string)
    | Arr(items: seq<JsValue>)
    | Obj(fields: map<string, JsValue>)

  /** JavaScript truthiness, as tested by `!v` and `v || w`. */
  predicate Truthy(v: JsValue) {
    match v
    case Undefined => false
    case Null => false
    case Bool(b) => b
    case Num(n) => n != 0
    case Str(s) => s != []
    case Arr(_) => true
    case Obj(_) => true
  }

  predicate IsNullish(v: JsValue) {
    v.Undefined? || v.Null?
  }

  /** `const { key } = v` succeeds unless `v` is `null` or `undefined`. */
  predicate CanDestructure(v: JsValue) {
    !IsNullish(v)
  }

  /** The value of property `key` of a non-nullish value. The property names
      the routes read are not inherited properties of any primitive or array,
      so only an object can supply them. */
  function Member(v: JsValue, key: string): (r: JsValue)
    ensures !v.Obj? ==> r == Undefined
    ensures v.Obj? && key !in v.fields ==> r == Undefined
    ensures v.Obj? && key in v.fields ==> r == v.fields[key]
  {
    if v.Obj? && key in v.fields then v.fields[key] else Undefined
  }

  /** Strict equality `===` between two values that come from different
      sources (the request and the database): primitives compare by value,
      and two separately created arrays or objects are never identical. */
  predicate StrictEquals(a: JsValue, b: JsValue) {
    match (a, b)
    case (Undefined, Undefined) => true
    case (Null, Null) => true
    case (Bool(x), Bool(y)) => x == y
    case (Num(x), Num(y)) => x == y
    case (Str(x), Str(y)) => x == y
    case _ => false
  }

  /** What a handler's trim-and-test of a field comes to: the field counts as
      missing, carries a non-blank trimmed text, or throws a TypeError because
      it is not a string and has no `trim` method. */
  datatype Trimmed = Blank | Text(value: string) | NotAString

  /** `!v || !v.trim()`: a falsy value is missing before `trim` is reached. */
  function GuardedTrim(v: JsValue): (r: Trimmed)
    ensures r.Blank? <==> !Truthy(v) || (v.Str? && IsBlank(v.s))
    ensures r.NotAString? <==> Truthy(v) && !v.Str?
    ensures r.Text? ==> v.Str? && r.value == Trim(v.s) && r.value != []
  {
    if !Truthy(v) then Blank
    else if !v.Str? then NotAString
    else if IsBlank(v.s) then Blank
    else Text(Trim(v.s))
  }

  /** `v?.trim()` tested for truthiness: only `null` and `undefined` skip the
      call, so `false` and `0` throw. */
  function OptionalTrim(v: JsValue): (r: Trimmed)
    ensures r.Blank? <==> IsNullish(v) || (v.Str? && IsBlank(v.s))
    ensures r.NotAString? <==> !IsNullish(v) && !v.Str?
    ensures r.Text? ==> v.Str? && r.value == Trim(v.s) && r.value != []
  {
    if IsNullish(v) then Blank
    else if !v.Str? then NotAString
    else if IsBlank(v.s) then Blank
    else Text(Trim(v.s))
  }

  /** The two idioms differ only on the falsy non-strings `false` and `0`,
      which the first reports as missing and the second rejects. */
  lemma TrimIdiomsAgree(v: JsValue)
    ensures GuardedTrim(v) != OptionalTrim(v) <==> v == Bool(false) || v == Num(0)
  {
  }
}

=== FILE: modules_route.dfy ===
/** `POST /api/modules` (src/app/api/modules/route.ts): creates a module
    through the `create_module` stored procedure. The procedure's result is
    answered with 201 through `Http.Relay`. */
module ModulesRoute {
  import opened Optional
  import opened JsText
  import opened JsValues
  import opened Http

  /** `rpc('create_module', { p_project_id, p_name })`. */
  datatype CreateModule = CreateModule(pProjectId: JsValue, pName: string)

  const FieldsRequired := "projectId and name are required"

  ghost predicate Acceptable(body: Option<JsValue>) {
    && body.Some?
    && CanDestructure(body.value)
    && Truthy(Member(body.value, "projectId"))
    && Member(body.value, "name").Str? && !IsBlank(Member(body.value, "name").s)
  }

  /** Validation `!projectId || !name?.trim()` and the procedure's arguments. */
  function PlanPost(body: Option<JsValue>): (p: Plan<CreateModule>)
    ensures p.Reject? ==> p.response == InvalidRequest || p.response == ErrorResponse(400, FieldsRequired)
    ensures p == Reject(InvalidRequest) <==>
              || body.None? || !CanDestructure(body.value)
              || (Truthy(Member(body.value, "projectId")) && OptionalTrim(Member(body.value, "name")).NotAString?)
    ensures p.Issue? <==> Acceptable(body)
    ensures p.Issue? ==>
              && p.command.pProjectId == Member(body.value, "projectId")
              && p.command.pName == Trim(Member(body.value, "name").s)
  {
    DiffersFromInvalidRequest(FieldsRequired);
    if body.None? || !CanDestructure(body.value) then Reject(InvalidRequest)
    else
      var v := body.value;
      if !Truthy(Member(v, "projectId")) then Reject(ErrorResponse(400, FieldsRequired))
      else
        match OptionalTrim(Member(v, "name"))
        case NotAString => Reject(InvalidRequest)
        case Blank => Reject(ErrorResponse(400, FieldsRequired))
        case Text(name) => Issue(CreateModule(Member(v, "projectId"), name))
  }

  /** The whole handler; `db` is the procedure's outcome if it is called. A
      module is answered with 201 exactly when the request was acceptable and
      the procedure succeeded. */
  function Post(body: Option<JsValue>, db: DbResult<JsValue>): (r: Response)
    ensures Acceptable(body) ==> r == Relay(201, db)
    ensures !Acceptable(body) ==> r == InvalidRequest || r == ErrorResponse(400, FieldsRequired)
    ensures r.status == 201 <==> Acceptable(body) && db.DbOk?
    ensures body.Some? && CanDestructure(body.value) && !Truthy(Member(body.value, "projectId")) ==>
              r == ErrorResponse(400, FieldsRequired)
  {
    match PlanPost(body)
    case Reject(response) => response
    case Issue(_) => Relay(201, db)
  }
}

=== FILE: new_project_form.dfy ===
/** The new-project form (src/app/admin/projects/new/page.tsx): the slug is
    filled in from the name until the user edits the slug by hand, and the
    form checks the name and then the slug before posting to
    `/api/projects`. */
module NewProjectForm {
  import opened Optional
  import opened JsText
  import opened JsValues
  import opened Http
  import opened Slug
  import ProjectsRoute

  /** The four text inputs of the form. */
  datatype ProjectForm = ProjectForm(name: string, clientName: string, clientSlug: string, clientPassword: string)

  /** The form together with the "slug edited by hand" flag. */
  datatype FormState = FormState(form: ProjectForm, slugManuallyEdited: bool)

  /** The state when the page opens: every input empty, slug not edited. */
  const Initial := FormState(ProjectForm("", "", "", ""), false)

  /** One change event on one input. */
  datatype FormEdit =
    | EditName(value: string)
    | EditClientName(value: string)
    | EditSlug(value: string)
    | EditPassword(value: string)

  /** `handleNameChange`: the slug follows the name unless it was edited. */
  function NameChanged(st: FormState, name: string): (r: FormState)
    ensures r.form.name == name && r.slugManuallyEdited == st.slugManuallyEdited
    ensures r.form.clientName == st.form.clientName && r.form.clientPassword == st.form.clientPassword
    ensures st.slugManuallyEdited ==> r.form.clientSlug == st.form.clientSlug
    ensures !st.slugManuallyEdited ==> r.form.clientSlug == GenerateSlug(name) && IsSlug(r.form.clientSlug)
  {
    var slug := if st.slugManuallyEdited then st.form.clientSlug else GenerateSlug(name);
    st.(form := st.form.(name := name, clientSlug := slug))
  }

  /** `handleSlugChange`: takes the typed slug and marks it as edited. */
  function SlugChanged(st: FormState, slug: string): (r: FormState)
    ensures r.form.clientSlug == slug && r.slugManuallyEdited
    ensures r.form.name == st.form.name
    ensures r.form.clientName == st.form.clientName && r.form.clientPassword == st.form.clientPassword
  {
    FormState(st.form.(clientSlug := slug), true)
  }

  function Apply(st: FormState, e: FormEdit): FormState {
    match e
    case EditName(v) => NameChanged(st, v)
    case EditSlug(v) => SlugChanged(st, v)
    case EditClientName(v) => st.(form := st.form.(clientName := v))
    case EditPassword(v) => st.(form := st.form.(clientPassword := v))
  }

  /** The state after a sequence of edits, starting from the empty form. */
  function Replay(edits: seq<FormEdit>): FormState {
    if edits == [] then Initial else Apply(Replay(edits[..|edits| - 1]), edits[|edits| - 1])
  }

  predicate SlugEditedIn(edits: seq<FormEdit>) {
    exists i :: 0 <= i < |edits| && edits[i].EditSlug?
  }

  lemma EmptyNameHasEmptySlug()
    ensures GenerateSlug("") == ""
  {
    assert Lower("") == "";
  }

  /** The auto-fill rule: the flag is set exactly when some edit touched the
      slug, and until then the slug is the slug of the current name. */
  lemma {:induction false} AutoFillInvariant(edits: seq<FormEdit>)
    ensures Replay(edits).slugManuallyEdited <==> SlugEditedIn(edits)
    ensures !Replay(edits).slugManuallyEdited ==>
              Replay(edits).form.clientSlug == GenerateSlug(Replay(edits).form.name)
  {
    if edits == [] {
      EmptyNameHasEmptySlug();
    } else {
      var prefix := edits[..|edits| - 1];
      AutoFillInvariant(prefix);
      if SlugEditedIn(prefix) {
        var i :| 0 <= i < |prefix| && prefix[i].EditSlug?;
        assert edits[i].EditSlug?;
      }
      if SlugEditedIn(edits) && !edits[|edits| - 1].EditSlug? {
        var i :| 0 <= i < |edits| && edits[i].EditSlug?;
        assert prefix[i].EditSlug?;
      }
    }
  }

  /** Once the slug is edited by hand, later name changes leave it alone. */
  lemma NameChangeKeepsEditedSlug(st: FormState, name: string)
    requires st.slugManuallyEdited
    ensures NameChanged(st, name).form.clientSlug == st.form.clientSlug
    ensures NameChanged(st, name).slugManuallyEdited
  {
  }

  /** What pressing "Create" does: show an error, or post the form. */
  datatype SubmitOutcome = ShowError(message: string) | SendRequest(body: JsValue)

  const NameRequiredMessage := "Project name is required."
  const SlugRequiredMessage := "Client slug is required."

  /** `JSON.stringify(form)`, as the route parses it. */
  function FormBody(f: ProjectForm): JsValue {
    Obj(map[
      "name" := Str(f.name),
      "client_name" := Str(f.clientName),
      "client_slug" := Str(f.clientSlug),
      "client_password" := Str(f.clientPassword)])
  }

  /** `handleSubmit`: the name is checked before the slug, and neither failure
      sends a request. */
  function Submit(f: ProjectForm): (r: SubmitOutcome)
    ensures r.SendRequest? <==> !IsBlank(f.name) && !IsBlank(f.clientSlug)
    ensures IsBlank(f.name) ==> r == ShowError(NameRequiredMessage)
    ensures !IsBlank(f.name) && IsBlank(f.clientSlug) ==> r == ShowError(SlugRequiredMessage)
    ensures r.SendRequest? ==> r.body == FormBody(f)
  {
    if IsBlank(f.name) then ShowError(NameRequiredMessage)
    else if IsBlank(f.clientSlug) then ShowError(SlugRequiredMessage)
    else SendRequest(FormBody(f))
  }

  lemma FormBodyMembers(f: ProjectForm)
    ensures CanDestructure(FormBody(f))
    ensures Member(FormBody(f), "name") == Str(f.name)
    ensures Member(FormBody(f), "client_name") == Str(f.clientName)
    ensures Member(FormBody(f), "client_slug") == Str(f.clientSlug)
    ensures Member(FormBody(f), "client_password") == Str(f.clientPassword)
  {
  }

  lemma GuardedTrimOfText(s: string)
    ensures GuardedTrim(Str(s)).Blank? <==> IsBlank(s)
    ensures !GuardedTrim(Str(s)).NotAString?
  {
    if s == [] {
      assert AllSpace(s);
    }
  }

  /** The form's own checks and the route's checks agree: the form sends a
      request exactly when the route would insert it, and each form error
      corresponds to the route's error for the same field. */
  lemma FormAgreesWithRoute(f: ProjectForm)
    ensures Submit(f).SendRequest? <==> ProjectsRoute.PlanPost(Some(FormBody(f))).Issue?
    ensures Submit(f) == ShowError(NameRequiredMessage) <==>
            ProjectsRoute.PlanPost(Some(FormBody(f))) == Reject(ErrorResponse(400, ProjectsRoute.NameRequired))
    ensures Submit(f) == ShowError(SlugRequiredMessage) <==>
            ProjectsRoute.PlanPost(Some(FormBody(f))) == Reject(ErrorResponse(400, ProjectsRoute.SlugRequired))
  {
    FormBodyMembers(f);
    GuardedTrimOfText(f.name);
    GuardedTrimOfText(f.clientSlug);
    var body := Some(FormBody(f));
    ProjectsRoute.PlanIssuesIffAcceptable(body);
    var plan := ProjectsRoute.PlanPost(body);
    if IsBlank(f.name) {
      ProjectsRoute.NameCheckedFirst(body);
    } else if IsBlank(f.clientSlug) {
      ProjectsRoute.SlugCheckedSecond(body);
    }
    if plan == Reject(ErrorResponse(400, ProjectsRoute.NameRequired)) && !IsBlank(f.name) {
      if IsBlank(f.clientSlug) {
        ErrorResponseInjective(400, ProjectsRoute.SlugRequired, 400, ProjectsRoute.NameRequired);
      }
    }
    if plan == Reject(ErrorResponse(400, ProjectsRoute.SlugRequired)) && IsBlank(f.name) {
      ErrorResponseInjective(400, ProjectsRoute.NameRequired, 400, ProjectsRoute.SlugRequired);
    }
  }

  /** A slug that was filled in from the name reaches the database exactly as
      the form showed it: it is already trimmed and lower-case. */
  lemma AutoFilledSlugStoredAsShown(edits: seq<FormEdit>)
    requires !Replay(edits).slugManuallyEdited
    requires Submit(Replay(edits).form).SendRequest?
    ensures ProjectsRoute.PlanPost(Some(FormBody(Replay(edits).form))).Issue?
    ensures ProjectsRoute.PlanPost(Some(FormBody(Replay(edits).form))).command.clientSlug
            == Replay(edits).form.clientSlug
  {
    var f := Replay(edits).form;
    AutoFillInvariant(edits);
    FormAgreesWithRoute(f);
    FormBodyMembers(f);
    ProjectsRoute.InsertedRow(Some(FormBody(f)));
    SlugIsFixedPoint(f.clientSlug);
    SlugCharFacts(f.clientSlug);
    TrimOfSpaceless(f.clientSlug);
    LowerOfLower(f.clientSlug);
  }
}

=== FILE: optional.dfy ===
/** Values that may be absent: a JavaScript field that is `null` or
    `undefined`, a query parameter that was not sent, or a nullable column. */
module Optional {

  datatype Option<+T> = None | Some(value: T)
}

=== FILE: projects_route.dfy ===
/** `POST /api/projects` (src/app/api/projects/route.ts): validates a new
    project, normalises the row, inserts it and maps the database outcome to
    a status code. */
module ProjectsRoute {
  import opened Optional
  import opened JsText
  import opened JsValues
  import opened Http

  /** The row inserted into `projects`. */
  datatype InsertProject = InsertProject(
    name: string,
    clientName: Option<string>,
    clientSlug: string,
    clientPassword: Option<string>,
    status: string)

  const NameRequired := "Project name is required"
  const SlugRequired := "Client slug is required"
  const SlugTaken := "That client slug is already taken. Choose a different one."

  /** SQLSTATE 23505, unique_violation: here, a second project with the same
      `client_slug`. */
  const UniqueViolation := "23505"

  /** `x?.trim() || null` for a field already known not to throw. */
  function Nullable(t: Trimmed): (r: Option<string>)
    requires !t.NotAString?
    ensures r.Some? <==> t.Text?
    ensures r.Some? ==> r.value == t.value
  {
    if t.Text? then Some(t.value) else None
  }

  /** The request passes every check of the handler and reaches the insert. */
  ghost predicate Acceptable(body: Option<JsValue>) {
    && body.Some?
    && CanDestructure(body.value)
    && Member(body.value, "name").Str? && !IsBlank(Member(body.value, "name").s)
    && Member(body.value, "client_slug").Str? && !IsBlank(Member(body.value, "client_slug").s)
    && (IsNullish(Member(body.value, "client_name")) || Member(body.value, "client_name").Str?)
    && (IsNullish(Member(body.value, "client_password")) || Member(body.value, "client_password").Str?)
  }

  /** Validation and normalisation, before any storage call. */
  function PlanPost(body: Option<JsValue>): (p: Plan<InsertProject>)
    ensures p.Reject? ==> p.response.status == 400 && p.response.cookie.None?
  {
    if body.None? || !CanDestructure(body.value) then Reject(InvalidRequest)
    else
      var v := body.value;
      match GuardedTrim(Member(v, "name"))
      case NotAString => Reject(InvalidRequest)
      case Blank => Reject(ErrorResponse(400, NameRequired))
      case Text(name) =>
        match GuardedTrim(Member(v, "client_slug"))
        case NotAString => Reject(InvalidRequest)
        case Blank => Reject(ErrorResponse(400, SlugRequired))
        case Text(slug) =>
          var clientName := OptionalTrim(Member(v, "client_name"));
          var clientPassword := OptionalTrim(Member(v, "client_password"));
          if clientName.NotAString? || clientPassword.NotAString? then Reject(InvalidRequest)
          else Issue(InsertProject(name, Nullable(clientName), Lower(slug), Nullable(clientPassword), "active"))
  }

  /** Only a request that passes every check reaches the insert. */
  lemma PlanIssuesIffAcceptable(body: Option<JsValue>)
    ensures PlanPost(body).Issue? <==> Acceptable(body)
  {
  }

  /** A rejection carries the name message, the slug message or the
      catch-all "Invalid request"; it is the catch-all exactly when the body
      is missing or not an object, or a field the handler calls `trim` on is
      a non-string. */
  lemma RejectionMessages(body: Option<JsValue>)
    ensures PlanPost(body).Reject? ==>
              || PlanPost(body).response == InvalidRequest
              || PlanPost(body).response == ErrorResponse(400, NameRequired)
              || PlanPost(body).response == ErrorResponse(400, SlugRequired)
    ensures PlanPost(body) == Reject(InvalidRequest) <==>
              || body.None? || !CanDestructure(body.value)
              || (var name := GuardedTrim(Member(body.value, "name"));
                  var slug := GuardedTrim(Member(body.value, "client_slug"));
                  || name.NotAString?
                  || (name.Text? && slug.NotAString?)
                  || (&& name.Text? && slug.Text?
                      && (|| OptionalTrim(Member(body.value, "client_name")).NotAString?
                          || OptionalTrim(Member(body.value, "client_password")).NotAString?)))
  {
    DiffersFromInvalidRequest(NameRequired);
    DiffersFromInvalidRequest(SlugRequired);
  }

  /** The name is checked first: a missing or blank name wins over a bad slug. */
  lemma NameCheckedFirst(body: Option<JsValue>)
    requires body.Some? && CanDestructure(body.value)
    requires GuardedTrim(Member(body.value, "name")).Blank?
    ensures PlanPost(body) == Reject(ErrorResponse(400, NameRequired))
  {
  }

  lemma SlugCheckedSecond(body: Option<JsValue>)
    requires body.Some? && CanDestructure(body.value)
    requires GuardedTrim(Member(body.value, "name")).Text?
    requires GuardedTrim(Member(body.value, "client_slug")).Blank?
    ensures PlanPost(body) == Reject(ErrorResponse(400, SlugRequired))
  {
  }

  /** The inserted row: name trimmed, slug trimmed and lower-cased, optional
      fields trimmed or null, status `'active'`. */
  lemma InsertedRow(body: Option<JsValue>)
    requires PlanPost(body).Issue?
    ensures var v := body.value; var row := PlanPost(body).command;
              && row.name == Trim(Member(v, "name").s)
              && row.clientSlug == Lower(Trim(Member(v, "client_slug").s))
              && row.status == "active"
              && (row.clientName.Some? <==>
                    Member(v, "client_name").Str? && !IsBlank(Member(v, "client_name").s))
              && (row.clientName.Some? ==> row.clientName.value == Trim(Member(v, "client_name").s))
              && (row.clientPassword.Some? <==>
                    Member(v, "client_password").Str? && !IsBlank(Member(v, "client_password").s))
              && (row.clientPassword.Some? ==> row.clientPassword.value == Trim(Member(v, "client_password").s))
  {
  }

  /** Maps the insert's outcome to the response. */
  function RespondPost(result: DbResult<string>): (r: Response)
    ensures r.cookie.None?
    ensures r.status == 409 <==> result.DbError? && result.code == UniqueViolation
    ensures result.DbError? && result.code == UniqueViolation ==> r == ErrorResponse(409, SlugTaken)
    ensures r.status == 500 <==> result.DbError? && result.code != UniqueViolation
    ensures r.status == 201 <==> result.DbOk?
    ensures result.DbError? && result.code != UniqueViolation ==> r.body == ErrorBody(result.message)
    ensures result.DbOk? ==> r.body == Obj(map["id" := Str(result.data)])
  {
    match result
    case DbError(code, message) =>
      if code == UniqueViolation then ErrorResponse(409, SlugTaken) else StorageError(message)
    case DbOk(id) => Ok(201, Obj(map["id" := Str(id)]))
  }

  /** The whole handler; `db` is what the database answers if the insert is
      issued, and is ignored otherwise. */
  function Post(body: Option<JsValue>, db: DbResult<string>): (r: Response)
    ensures !Acceptable(body) ==> r.status == 400
    ensures !Acceptable(body) ==>
              || r == InvalidRequest
              || r == ErrorResponse(400, NameRequired)
              || r == ErrorResponse(400, SlugRequired)
    ensures Acceptable(body) ==> r == RespondPost(db)
  {
    RejectionMessages(body);
    PlanIssuesIffAcceptable(body);
    match PlanPost(body)
    case Reject(response) => response
    case Issue(_) => RespondPost(db)
  }

  /** An optional text column as the JSON value that carries it. */
  function NullableAsJs(o: Option<string>): JsValue {
    if o.Some? then Str(o.value) else Null
  }

  /** The request body that carries a stored row's own values. */
  function RowAsBody(row: InsertProject): JsValue {
    Obj(map[
      "name" := Str(row.name),
      "client_slug" := Str(row.clientSlug),
      "client_name" := NullableAsJs(row.clientName),
      "client_password" := NullableAsJs(row.clientPassword)])
  }

  lemma RowAsBodyMembers(row: InsertProject)
    ensures Member(RowAsBody(row), "name") == Str(row.name)
    ensures Member(RowAsBody(row), "client_slug") == Str(row.clientSlug)
    ensures Member(RowAsBody(row), "client_name") == NullableAsJs(row.clientName)
    ensures Member(RowAsBody(row), "client_password") == NullableAsJs(row.clientPassword)
  {
  }

  /** A text that is already trimmed and not blank passes the guard as itself. */
  lemma GuardedTrimOfTrimmed(s: string)
    requires s != [] && Trim(s) == s
    ensures GuardedTrim(Str(s)) == Text(s)
  {
  }

  /** A nullable text the handler produced is read back as itself. */
  lemma NullableRoundTrip(o: Option<string>)
    requires o.Some? ==> o.value != [] && Trim(o.value) == o.value
    ensures !OptionalTrim(NullableAsJs(o)).NotAString?
    ensures Nullable(OptionalTrim(NullableAsJs(o))) == o
  {
  }

  /** The columns of a row the handler produced are in normal form. */
  lemma InsertedRowIsNormal(body: Option<JsValue>)
    requires PlanPost(body).Issue?
    ensures var row := PlanPost(body).command;
              && row.name != [] && Trim(row.name) == row.name
              && row.clientSlug != [] && Trim(row.clientSlug) == row.clientSlug
              && Lower(row.clientSlug) == row.clientSlug
              && (row.clientName.Some? ==> row.clientName.value != [] && Trim(row.clientName.value) == row.clientName.value)
              && (row.clientPassword.Some? ==> row.clientPassword.value != [] && Trim(row.clientPassword.value) == row.clientPassword.value)
  {
    var v := body.value;
    InsertedRow(body);
    TrimIdempotent(Member(v, "name").s);
    LowerTrimIsNormal(Member(v, "client_slug").s);
    LowerIdempotent(Trim(Member(v, "client_slug").s));
    if Member(v, "client_name").Str? {
      TrimIdempotent(Member(v, "client_name").s);
    }
    if Member(v, "client_password").Str? {
      TrimIdempotent(Member(v, "client_password").s);
    }
  }

  /** Normalisation is idempotent: posting back the fields of a row the handler
      produced yields that same row. */
  lemma NormalisedRowIsFixedPoint(body: Option<JsValue>)
    requires PlanPost(body).Issue?
    ensures PlanPost(Some(RowAsBody(PlanPost(body).command))) == PlanPost(body)
  {
    var row := PlanPost(body).command;
    InsertedRowIsNormal(body);
    RowAsBodyMembers(row);
    GuardedTrimOfTrimmed(row.name);
    GuardedTrimOfTrimmed(row.clientSlug);
    NullableRoundTrip(row.clientName);
    NullableRoundTrip(row.clientPassword);
  }

  /** A trimmed, lower-cased slug is unchanged by trimming and lower-casing
      again, and is not blank when the trimmed text was not. */
  lemma LowerTrimIsNormal(s: string)
    requires !IsBlank(s)
    ensures var t := Lower(Trim(s)); Trim(t) == t && t != []
  {
    var t := Trim(s);
    var l := Lower(t);
    LowerKeepsTrimmed(t);
    TrimIdempotent(s);
  }

  lemma LowerKeepsTrimmed(t: string)
    requires Trim(t) == t
    ensures Trim(Lower(t)) == Lower(t)
  {
    var l := Lower(t);
    if t != [] {
      assert !IsSpace(t[0]) && !IsSpace(t[|t| - 1]);
      assert !IsSpace(l[0]) && !IsSpace(l[|l| - 1]);
      assert TrimStart(l) == l;
      assert TrimEnd(l) == l;
    }
  }

  lemma LowerIdempotent(s: string)
    ensures Lower(Lower(s)) == Lower(s)
  {
  }
}

=== FILE: qa_checklist.dfy ===
/** The QA checklist of a task (src/components/admin/QAModal.tsx): twelve
    fixed items, a map of ticked keys, the passed count, toggling with revert
    on a failed save, and the rounded percentage shown above the bar. */
module QaChecklist {

  /** The keys of `QA_ITEMS`, in display order. */
  const QaItems: seq<string> := [
    "feature_works",
    "no_console_errors",
    "mobile_responsive",
    "loading_states",
    "error_states",
    "no_hardcoded_data",
    "env_vars_correct",
    "rls_checked",
    "api_status_codes",
    "no_any_types",
    "eslint_passes",
    "tested_production"]

  /** The `qa_checks` record of a task. */
  type Checks = map<string, bool>

  /** `checks[key]` read as a condition: a missing key is `undefined`, which
      is falsy. */
  predicate Checked(checks: Checks, key: string) {
    key in checks && checks[key]
  }

  predicate Distinct(keys: seq<string>) {
    forall i, j :: 0 <= i < j < |keys| ==> keys[i] != keys[j]
  }

  /** How many of `keys` are ticked:
      `keys.filter((k) => checks[k]).length`. */
  function CountChecked(keys: seq<string>, checks: Checks): (n: nat)
    ensures n <= |keys|
  {
    if keys == [] then 0
    else (if Checked(checks, keys[0]) then 1 else 0) + CountChecked(keys[1..], checks)
  }

  /** `passed`: how many of the twelve items are ticked. */
  function Passed(checks: Checks): (n: nat)
    ensures n <= 12
  {
    CountChecked(QaItems, checks)
  }

  /** The twelve keys are pairwise different. */
  lemma QaItemsDistinct()
    ensures |QaItems| == 12 && Distinct(QaItems)
  {
  }

  /** `{ ...checks, [key]: !checks[key] }`. */
  function Toggle(checks: Checks, key: string): (r: Checks)
    ensures key in r && (Checked(r, key) <==> !Checked(checks, key))
    ensures r.Keys == checks.Keys + {key}
    ensures forall k :: k in checks && k != key ==> r[k] == checks[k]
  {
    checks[key := !Checked(checks, key)]
  }

  /** Toggling a key twice leaves every key reading as it did before. */
  lemma ToggleTwice(checks: Checks, key: string, k: string)
    ensures Checked(Toggle(Toggle(checks, key), key), k) == Checked(checks, k)
  {
  }

  /** Keys outside the list do not affect its count. */
  lemma {:induction false} CountIgnoresOtherKeys(keys: seq<string>, checks: Checks, key: string, b: bool)
    requires key !in keys
    ensures CountChecked(keys, checks[key := b]) == CountChecked(keys, checks)
  {
    if keys != [] {
      CountIgnoresOtherKeys(keys[1..], checks, key, b);
    }
  }

  /** Toggling a listed key moves the count by exactly one, up when the key
      was unticked and down when it was ticked. */
  lemma {:induction false} ToggleMovesCount(keys: seq<string>, checks: Checks, key: string)
    requires Distinct(keys) && key in keys
    ensures CountChecked(keys, Toggle(checks, key))
         == if Checked(checks, key) then CountChecked(keys, checks) - 1 else CountChecked(keys, checks) + 1
  {
    var t := Toggle(checks, key);
    if keys[0] == key {
      assert key !in keys[1..] by {
        forall i | 0 <= i < |keys[1..]|
          ensures keys[1..][i] != key
        {
          assert keys[1..][i] == keys[i + 1];
        }
      }
      CountIgnoresOtherKeys(keys[1..], checks, key, !Checked(checks, key));
    } else {
      assert key in keys[1..];
      assert Distinct(keys[1..]) by {
        forall i, j | 0 <= i < j < |keys[1..]|
          ensures keys[1..][i] != keys[1..][j]
        {
          assert keys[1..][i] == keys[i + 1] && keys[1..][j] == keys[j + 1];
        }
      }
      ToggleMovesCount(keys[1..], checks, key);
    }
  }

  /** Ticking an unticked item raises `passed` by one and unticking lowers it
      by one; toggling a key that is not an item leaves it unchanged. */
  lemma TogglePassed(checks: Checks, key: string)
    ensures key in QaItems && !Checked(checks, key) ==> Passed(Toggle(checks, key)) == Passed(checks) + 1
    ensures key in QaItems && Checked(checks, key) ==> Passed(Toggle(checks, key)) == Passed(checks) - 1
    ensures key !in QaItems ==> Passed(Toggle(checks, key)) == Passed(checks)
  {
    QaItemsDistinct();
    if key in QaItems {
      ToggleMovesCount(QaItems, checks, key);
    } else {
      CountIgnoresOtherKeys(QaItems, checks, key, !Checked(checks, key));
    }
  }

  /** The checks after `toggleCheck(key)` settles: the toggled map is shown
      at once and is put back to the previous map only when the save request
      throws; a save answered with an error status keeps the toggle. */
  function AfterToggle(checks: Checks, key: string, saveThrew: bool): (r: Checks)
    ensures saveThrew ==> r == checks
    ensures !saveThrew ==> Checked(r, key) != Checked(checks, key)
    ensures !saveThrew ==> r.Keys == checks.Keys + {key}
    ensures !saveThrew ==> forall k :: k in checks && k != key ==> r[k] == checks[k]
  {
    if saveThrew then checks else Toggle(checks, key)
  }

  /** After a toggle settles, `passed` is back where it was if the save threw,
      and otherwise has moved by one for an item (up when ticking, down when
      unticking) and not at all for any other key. */
  lemma AfterTogglePassed(checks: Checks, key: string, saveThrew: bool)
    ensures saveThrew ==> Passed(AfterToggle(checks, key, saveThrew)) == Passed(checks)
    ensures !saveThrew && key in QaItems && !Checked(checks, key) ==>
              Passed(AfterToggle(checks, key, saveThrew)) == Passed(checks) + 1
    ensures !saveThrew && key in QaItems && Checked(checks, key) ==>
              Passed(AfterToggle(checks, key, saveThrew)) == Passed(checks) - 1
    ensures !saveThrew && key !in QaItems ==> Passed(AfterToggle(checks, key, saveThrew)) == Passed(checks)
  {
    if !saveThrew {
      TogglePassed(checks, key);
    }
  }

  /** `Math.round((passed / 12) * 100)`: the nearest whole percentage with
      halves rounded up, written as `floor(100 * passed / 12 + 1/2)`. */
  function Percent(passed: nat): (r: nat)
    requires passed <= 12
    ensures r <= 100
    ensures 12 * r <= 100 * passed + 6 && 100 * passed - 6 < 12 * r
  {
    (200 * passed + 12) / 24
  }

  /** The exact percentage is never halfway between two whole numbers, so
      the rounding direction of ties never matters and a float error below
      one sixth cannot change the result. */
  lemma NoTies(passed: nat)
    ensures (100 * passed) % 12 != 6
  {
  }

  /** The shown percentage is `(25 * passed + 1) / 3` rounded down; it is 0
      exactly when nothing passed and 100 exactly when all twelve did. */
  lemma PercentClosedForm(passed: nat)
    requires passed <= 12
    ensures Percent(passed) == (25 * passed + 1) / 3
    ensures Percent(passed) == 0 <==> passed == 0
    ensures Percent(passed) == 100 <==> passed == 12
  {
  }

  /** More passed items never show a smaller percentage. */
  lemma PercentMonotone(p: nat, q: nat)
    requires p <= q <= 12
    ensures Percent(p) <= Percent(q)
  {
  }
}

=== FILE: route_guard.dfy ===
/** The redirect decision of the edge middleware (middleware.ts): signed-out
    visitors are sent from the admin area to the login page, signed-in users
    are sent from the login page to the admin area, and everything else goes
    through. Whether a user is signed in is the outcome of the session
    refresh, taken here as a boolean. */
module RouteGuard {

  datatype Decision = PassThrough | RedirectTo(pathname: string)

  const AdminPrefix := "/admin"
  const LoginPath := "/login"

  /** The middleware's decision for one request. The admin test is a raw
      string prefix, so `/administrator` is guarded as well. */
  function Guard(signedIn: bool, pathname: string): (d: Decision)
    ensures d.RedirectTo? ==> d.pathname == LoginPath || d.pathname == AdminPrefix
    ensures d == RedirectTo(LoginPath) <==> !signedIn && AdminPrefix <= pathname
    ensures d == RedirectTo(AdminPrefix) <==> signedIn && pathname == LoginPath
  {
    if !signedIn && AdminPrefix <= pathname then RedirectTo(LoginPath)
    else if signedIn && pathname == LoginPath then RedirectTo(AdminPrefix)
    else PassThrough
  }

  /** Every other combination passes through, among them a signed-out visit
      to the login page and a signed-in visit to the admin area. */
  lemma PassThroughCases(signedIn: bool, pathname: string)
    ensures Guard(signedIn, pathname) == PassThrough <==>
              (signedIn || !(AdminPrefix <= pathname)) && (!signedIn || pathname != LoginPath)
    ensures Guard(false, LoginPath) == PassThrough
    ensures AdminPrefix <= pathname ==> Guard(true, pathname) == PassThrough
  {
    if AdminPrefix <= pathname {
      assert pathname[..|AdminPrefix|] == AdminPrefix;
      assert LoginPath[..|AdminPrefix|] != AdminPrefix;
    }
    assert !(AdminPrefix <= LoginPath) by {
      assert LoginPath[1] != AdminPrefix[1];
    }
  }

  /** A redirect's target is a fixed point of the guard under the same
      authentication state, so following a redirect cannot loop. */
  lemma RedirectTargetPassesThrough(signedIn: bool, pathname: string)
    ensures Guard(signedIn, pathname).RedirectTo? ==>
              Guard(signedIn, Guard(signedIn, pathname).pathname) == PassThrough
  {
    assert !(AdminPrefix <= LoginPath) by {
      assert LoginPath[1] != AdminPrefix[1];
    }
    assert AdminPrefix != LoginPath by {
      assert AdminPrefix[1] != LoginPath[1];
    }
  }

  /** A redirect never points back at the page it came from. */
  lemma RedirectLeavesThePage(signedIn: bool, pathname: string)
    ensures Guard(signedIn, pathname).RedirectTo? ==> Guard(signedIn, pathname).pathname != pathname
  {
    RedirectTargetPassesThrough(signedIn, pathname);
  }
}

=== FILE: slug.dfy ===
/** Slug generation for the new-project form
    (src/app/admin/projects/new/page.tsx, `generateSlug`): a project name is
    lower-cased, trimmed, stripped of every character outside `[a-z0-9\s-]`,
    its white-space runs turned into `-`, and its `-` runs collapsed. */
module Slug {
  import opened JsText

  /** The alphabet of a finished slug. */
  predicate IsSlugChar(c: char) {
    ('a' <= c <= 'z') || ('0' <= c <= '9') || c == '-'
  }

  /** The characters that survive `.replace(/[^a-z0-9\s-]/g, '')`. */
  predicate KeptByStrip(c: char) {
    IsSlugChar(c) || IsSpace(c)
  }

  /** No two consecutive hyphens. */
  predicate NoDoubleHyphen(s: string) {
    forall i :: 0 <= i < |s| - 1 ==> !(s[i] == '-' && s[i + 1] == '-')
  }

  /** A string that `generateSlug` could have produced. */
  predicate IsSlug(s: string) {
    (forall i :: 0 <= i < |s| ==> IsSlugChar(s[i])) && NoDoubleHyphen(s)
  }

  /** `.replace(/[^a-z0-9\s-]/g, '')`: keeps exactly the characters of the
      class, in their order. */
  function StripDisallowed(s: string): (r: string)
    ensures |r| <= |s|
    ensures forall i :: 0 <= i < |r| ==> KeptByStrip(r[i])
  {
    if s == [] then []
    else if KeptByStrip(s[0]) then [s[0]] + StripDisallowed(s[1..])
    else StripDisallowed(s[1..])
  }

  /** The strip step loses no character of the class: each one occurs as
      often in the result as in the input. */
  lemma {:induction false} StripKeepsClassMembers(s: string, c: char)
    requires KeptByStrip(c)
    ensures multiset(StripDisallowed(s))[c] == multiset(s)[c]
  {
    if s != [] {
      assert s == [s[0]] + s[1..];
      StripKeepsClassMembers(s[1..], c);
    }
  }

  /** `.replace(/\s+/g, '-')`, scanning left to right; `inRun` is true when the
      previous character was white space that has already been replaced. */
  function HyphenateRuns(s: string, inRun: bool): string
  {
    if s == [] then []
    else
      if IsSpace(s[0]) then
        if inRun then HyphenateRuns(s[1..], true) else "-" + HyphenateRuns(s[1..], true)
      else [s[0]] + HyphenateRuns(s[1..], false)
  }

  /** `.replace(/-+/g, '-')`, scanning left to right; `inRun` is true when the
      previous output character was a hyphen. */
  function CollapseHyphens(s: string, inRun: bool): (r: string)
    ensures NoDoubleHyphen(r)
    ensures inRun && |r| > 0 ==> r[0] != '-'
  {
    if s == [] then []
    else
      if s[0] == '-' then
        if inRun then CollapseHyphens(s[1..], true) else "-" + CollapseHyphens(s[1..], true)
      else [s[0]] + CollapseHyphens(s[1..], false)
  }

  /** `generateSlug(name)`. */
  function GenerateSlug(name: string): (r: string)
    ensures IsSlug(r)
  {
    var stripped := StripDisallowed(Trim(Lower(name)));
    var hyphenated := HyphenateRuns(stripped, false);
    HyphenateKeepsAlphabet(stripped, false);
    var r := CollapseHyphens(hyphenated, false);
    CollapseKeepsAlphabet(hyphenated, false);
    r
  }

  /** Replacing white-space runs by `-` turns the stripped alphabet into the
      slug alphabet. */
  lemma {:induction false} HyphenateKeepsAlphabet(s: string, inRun: bool)
    requires forall i :: 0 <= i < |s| ==> KeptByStrip(s[i])
    ensures NoSpace(HyphenateRuns(s, inRun))
    ensures forall i :: 0 <= i < |HyphenateRuns(s, inRun)| ==> IsSlugChar(HyphenateRuns(s, inRun)[i])
  {
    if s != [] {
      HyphenateKeepsAlphabet(s[1..], true);
      HyphenateKeepsAlphabet(s[1..], false);
    }
  }

  /** Collapsing hyphen runs introduces no new character. */
  lemma {:induction false} CollapseKeepsAlphabet(s: string, inRun: bool)
    requires forall i :: 0 <= i < |s| ==> IsSlugChar(s[i])
    ensures forall i :: 0 <= i < |CollapseHyphens(s, inRun)| ==> IsSlugChar(CollapseHyphens(s, inRun)[i])
  {
    if s != [] {
      CollapseKeepsAlphabet(s[1..], true);
      CollapseKeepsAlphabet(s[1..], false);
    }
  }

  // ------------------------------------------- what each step keeps and adds

  /** The characters of `s` that satisfy `keep`, in their order. */
  function Filter(s: string, keep: char -> bool): (r: string)
    ensures |r| <= |s|
  {
    if s == [] then []
    else if keep(s[0]) then [s[0]] + Filter(s[1..], keep)
    else Filter(s[1..], keep)
  }

  lemma {:induction false} FilterAppend(a: string, b: string, keep: char -> bool)
    ensures Filter(a + b, keep) == Filter(a, keep) + Filter(b, keep)
  {
    if a == [] {
      assert a + b == b;
    } else {
      assert (a + b)[1..] == a[1..] + b;
      FilterAppend(a[1..], b, keep);
    }
  }

  /** The letters and digits a slug is made of. */
  predicate IsAlnum(c: char) {
    ('a' <= c <= 'z') || ('0' <= c <= '9')
  }

  /** Neither a hyphen nor white space: what the two run replacements never
      touch. */
  predicate IsWordChar(c: char) {
    c != '-' && !IsSpace(c)
  }

  lemma {:induction false} FilterOfSpaces(s: string)
    requires AllSpace(s)
    ensures Filter(s, IsAlnum) == []
  {
    if s != [] {
      FilterOfSpaces(s[1..]);
    }
  }

  /** White space around a string adds no letter or digit. */
  lemma FilterOfPadded(a: string, m: string, b: string)
    requires AllSpace(a) && AllSpace(b)
    ensures Filter(a + m + b, IsAlnum) == Filter(m, IsAlnum)
  {
    FilterAppend(a + m, b, IsAlnum);
    FilterAppend(a, m, IsAlnum);
    FilterOfSpaces(a);
    FilterOfSpaces(b);
  }

  /** Trimming drops no letter or digit. */
  lemma TrimKeepsAlnum(s: string)
    ensures Filter(Trim(s), IsAlnum) == Filter(s, IsAlnum)
  {
    var i, j := TrimCutPoints(s);
    assert s == s[..i] + s[i..j] + s[j..];
    FilterOfPadded(s[..i], s[i..j], s[j..]);
  }

  /** The strip step is exactly a filter by the class: the kept characters,
      white space and hyphens included, stay in their input order. */
  lemma {:induction false} StripIsFilter(s: string)
    ensures StripDisallowed(s) == Filter(s, KeptByStrip)
  {
    if s != [] {
      StripIsFilter(s[1..]);
    }
  }

  /** The strip step drops no letter or digit. */
  lemma {:induction false} StripKeepsAlnum(s: string)
    ensures Filter(StripDisallowed(s), IsAlnum) == Filter(s, IsAlnum)
  {
    if s != [] {
      StripKeepsAlnum(s[1..]);
    }
  }

  /** Replacing white-space runs neither drops, adds nor reorders any
      character other than hyphens and white space. */
  lemma {:induction false} HyphenateKeepsWords(s: string, inRun: bool)
    ensures Filter(HyphenateRuns(s, inRun), IsWordChar) == Filter(s, IsWordChar)
  {
    if s != [] {
      HyphenateKeepsWords(s[1..], IsSpace(s[0]));
    }
  }

  /** Collapsing hyphen runs neither drops, adds nor reorders any character
      other than hyphens and white space. */
  lemma {:induction false} CollapseKeepsWords(s: string, inRun: bool)
    ensures Filter(CollapseHyphens(s, inRun), IsWordChar) == Filter(s, IsWordChar)
  {
    if s != [] {
      CollapseKeepsWords(s[1..], s[0] == '-');
    }
  }

  lemma {:induction false} WordsKeepAlnum(a: string, b: string)
    requires Filter(a, IsWordChar) == Filter(b, IsWordChar)
    ensures Filter(a, IsAlnum) == Filter(b, IsAlnum)
  {
    AlnumOfWords(a);
    AlnumOfWords(b);
  }

  lemma {:induction false} AlnumOfWords(s: string)
    ensures Filter(Filter(s, IsWordChar), IsAlnum) == Filter(s, IsAlnum)
  {
    if s != [] {
      AlnumOfWords(s[1..]);
    }
  }

  /** The letters and digits of a slug are exactly those of the lower-cased
      name, in the same order: `generateSlug` only removes other characters
      and adds hyphens. */
  lemma GenerateSlugKeepsAlnum(name: string)
    ensures Filter(GenerateSlug(name), IsAlnum) == Filter(Lower(name), IsAlnum)
  {
    var stripped := StripDisallowed(Trim(Lower(name)));
    var hyphenated := HyphenateRuns(stripped, false);
    TrimKeepsAlnum(Lower(name));
    StripKeepsAlnum(Trim(Lower(name)));
    HyphenateKeepsWords(stripped, false);
    WordsKeepAlnum(hyphenated, stripped);
    CollapseKeepsWords(hyphenated, false);
    WordsKeepAlnum(CollapseHyphens(hyphenated, false), hyphenated);
  }

  /** How many white-space runs start in `s`; `inRun` says whether one is
      already under way before `s`. */
  function SpaceRuns(s: string, inRun: bool): nat {
    if s == [] then 0
    else (if IsSpace(s[0]) && !inRun then 1 else 0) + SpaceRuns(s[1..], IsSpace(s[0]))
  }

  /** How many hyphen runs start in `s`; `inRun` says whether one is already
      under way before `s`. */
  function HyphenRuns(s: string, inRun: bool): nat {
    if s == [] then 0
    else (if s[0] == '-' && !inRun then 1 else 0) + HyphenRuns(s[1..], s[0] == '-')
  }

  /** Each white-space run becomes exactly one new hyphen; existing hyphens
      stay. */
  lemma {:induction false} HyphenateCountsRuns(s: string, inRun: bool)
    ensures multiset(HyphenateRuns(s, inRun))['-'] == multiset(s)['-'] + SpaceRuns(s, inRun)
  {
    if s != [] {
      assert s == [s[0]] + s[1..];
      HyphenateCountsRuns(s[1..], IsSpace(s[0]));
    }
  }

  /** Each hyphen run leaves exactly one hyphen. */
  lemma {:induction false} CollapseCountsRuns(s: string, inRun: bool)
    ensures multiset(CollapseHyphens(s, inRun))['-'] == HyphenRuns(s, inRun)
  {
    if s != [] {
      assert s == [s[0]] + s[1..];
      CollapseCountsRuns(s[1..], s[0] == '-');
    }
  }

  lemma {:induction false} StripOfKept(s: string)
    requires forall i :: 0 <= i < |s| ==> KeptByStrip(s[i])
    ensures StripDisallowed(s) == s
  {
    if s != [] {
      StripOfKept(s[1..]);
    }
  }

  lemma {:induction false} HyphenateOfSpaceless(s: string, inRun: bool)
    requires NoSpace(s)
    ensures HyphenateRuns(s, inRun) == s
  {
    if s != [] {
      HyphenateOfSpaceless(s[1..], false);
    }
  }

  lemma {:induction false} CollapseOfSingleHyphens(s: string, inRun: bool)
    requires NoDoubleHyphen(s)
    requires inRun ==> |s| == 0 || s[0] != '-'
    ensures CollapseHyphens(s, inRun) == s
  {
    if s != [] {
      CollapseOfSingleHyphens(s[1..], s[0] == '-');
    }
  }

  /** The character-class facts about a slug that each pipeline step needs. */
  lemma SlugCharFacts(s: string)
    requires IsSlug(s)
    ensures NoSpace(s)
    ensures forall i :: 0 <= i < |s| ==> !IsUpperAscii(s[i])
    ensures forall i :: 0 <= i < |s| ==> KeptByStrip(s[i])
  {
  }

  /** Every slug is a fixed point of `generateSlug`: running it on its own
      output changes nothing. */
  lemma SlugIsFixedPoint(s: string)
    requires IsSlug(s)
    ensures GenerateSlug(s) == s
  {
    SlugCharFacts(s);
    LowerOfLower(s);
    TrimOfSpaceless(s);
    StripOfKept(s);
    HyphenateOfSpaceless(s, false);
    CollapseOfSingleHyphens(s, false);
  }

  /** `generateSlug` is idempotent. */
  lemma GenerateSlugIdempotent(name: string)
    ensures GenerateSlug(GenerateSlug(name)) == GenerateSlug(name)
  {
    SlugIsFixedPoint(GenerateSlug(name));
  }

  /** White space around a name does not affect its slug, because the name is
      trimmed before conversion. */
  lemma GenerateSlugIgnoresPadding(w1: string, name: string, w2: string)
    requires AllSpace(w1) && AllSpace(w2)
    ensures GenerateSlug(w1 + name + w2) == GenerateSlug(name)
  {
    LowerOfPadded(w1, name, w2);
    TrimOfPadded(w1, Lower(name), w2);
  }

  lemma {:induction false} HyphenateSpacelessPrefix(w: string, rest: string, inRun: bool)
    requires NoSpace(w)
    ensures HyphenateRuns(w + rest, inRun) == w + HyphenateRuns(rest, if w == [] then inRun else false)
  {
    if w == [] {
      assert w + rest == rest;
    } else {
      assert (w + rest)[1..] == w[1..] + rest;
      HyphenateSpacelessPrefix(w[1..], rest, false);
    }
  }

  lemma HyphenateSpaceHead(c: char, rest: string)
    requires IsSpace(c)
    ensures HyphenateRuns([c] + rest, false) == "-" + HyphenateRuns(rest, true)
  {
    assert ([c] + rest)[1..] == rest;
  }

  lemma ExampleLowerTrim()
    ensures Trim(Lower("Acme Corp App")) == "acme corp app"
  {
    var x := "acme corp app";
    assert Lower("Acme Corp App") == x;
    assert !IsSpace(x[0]);
    assert TrimStart(x) == x;
    assert !IsSpace(x[|x| - 1]);
    assert TrimEnd(x) == x;
  }

  lemma ExampleStrip()
    ensures StripDisallowed("acme corp app") == "acme corp app"
  {
    StripOfKept("acme corp app");
  }

  lemma ExampleWordsHaveNoSpace()
    ensures NoSpace("acme") && NoSpace("corp") && NoSpace("app")
  {
  }

  lemma ExampleLiterals()
    ensures " app" == [' '] + "app"
    ensures "corp app" == "corp" + " app"
    ensures " corp app" == [' '] + "corp app"
    ensures "acme corp app" == "acme" + " corp app"
    ensures "acme" + "-corp-app" == "acme-corp-app"
    ensures "-" + "corp-app" == "-corp-app"
    ensures "corp" + "-app" == "corp-app"
    ensures "app" + [] == "app"
  {
  }

  lemma ExampleHyphenateTail()
    ensures HyphenateRuns(" app", false) == "-app"
  {
    ExampleWordsHaveNoSpace();
    ExampleLiterals();
    HyphenateSpacelessPrefix("app", [], true);
    HyphenateSpaceHead(' ', "app");
  }

  lemma ExampleHyphenateCorp()
    ensures HyphenateRuns("corp" + " app", true) == "corp" + "-app"
  {
    ExampleWordsHaveNoSpace();
    ExampleHyphenateTail();
    HyphenateSpacelessPrefix("corp", " app", true);
  }

  lemma ExampleHyphenateMiddle()
    ensures HyphenateRuns([' '] + "corp app", false) == "-" + "corp-app"
  {
    ExampleLiterals();
    ExampleHyphenateCorp();
    HyphenateSpaceHead(' ', "corp app");
  }

  lemma ExampleHyphenateWhole()
    ensures HyphenateRuns("acme" + " corp app", false) == "acme" + "-corp-app"
  {
    ExampleLiterals();
    ExampleWordsHaveNoSpace();
    ExampleHyphenateMiddle();
    HyphenateSpacelessPrefix("acme", " corp app", false);
  }

  lemma ExampleHyphenate()
    ensures HyphenateRuns("acme corp app", false) == "acme-corp-app"
  {
    ExampleLiterals();
    ExampleHyphenateWhole();
  }

  lemma ExampleCollapse()
    ensures CollapseHyphens("acme-corp-app", false) == "acme-corp-app"
  {
    CollapseOfSingleHyphens("acme-corp-app", false);
  }

  /** `generateSlug` is the composition of its five steps. */
  lemma GenerateSlugSteps(name: string)
    ensures GenerateSlug(name)
         == CollapseHyphens(HyphenateRuns(StripDisallowed(Trim(Lower(name))), false), false)
  {
  }

  /** The worked example in the source's own comment. */
  lemma GenerateSlugExample()
    ensures GenerateSlug("Acme Corp App") == "acme-corp-app"
  {
    GenerateSlugSteps("Acme Corp App");
    ExampleLowerTrim();
    ExampleStrip();
    ExampleHyphenate();
    ExampleCollapse();
  }
}

=== FILE: tasks_route.dfy ===
/** `POST /api/tasks` (src/app/api/tasks/route.ts): creates a task at the top
    of the backlog of a module. The stored row is answered with 201 through
    `Http.Relay`. */
module TasksRoute {
  import opened Optional
  import opened JsText
  import opened JsValues
  import opened Http

  /** `insert into tasks (module_id, project_id, title, status, position)`. */
  datatype InsertTask = InsertTask(moduleId: JsValue, projectId: JsValue, title: string, status: string, position: int)

  const FieldsRequired := "moduleId, projectId, and title are required"

  ghost predicate Acceptable(body: Option<JsValue>) {
    && body.Some?
    && CanDestructure(body.value)
    && Truthy(Member(body.value, "moduleId"))
    && Truthy(Member(body.value, "projectId"))
    && Member(body.value, "title").Str? && !IsBlank(Member(body.value, "title").s)
  }

  /** Validation `!moduleId || !projectId || !title?.trim()` and the defaulted
      row: every new task starts in the backlog at position 0. */
  function PlanPost(body: Option<JsValue>): (p: Plan<InsertTask>)
    ensures p.Reject? ==> p.response == InvalidRequest || p.response == ErrorResponse(400, FieldsRequired)
    ensures p == Reject(InvalidRequest) <==>
              || body.None? || !CanDestructure(body.value)
              || (&& Truthy(Member(body.value, "moduleId")) && Truthy(Member(body.value, "projectId"))
                  && OptionalTrim(Member(body.value, "title")).NotAString?)
    ensures p.Issue? <==> Acceptable(body)
    ensures p.Issue? ==>
              && p.command.moduleId == Member(body.value, "moduleId")
              && p.command.projectId == Member(body.value, "projectId")
              && p.command.title == Trim(Member(body.value, "title").s)
              && p.command.title != []
              && p.command.status == "backlog"
              && p.command.position == 0
  {
    DiffersFromInvalidRequest(FieldsRequired);
    if body.None? || !CanDestructure(body.value) then Reject(InvalidRequest)
    else
      var v := body.value;
      if !Truthy(Member(v, "moduleId")) || !Truthy(Member(v, "projectId")) then
        Reject(ErrorResponse(400, FieldsRequired))
      else
        match OptionalTrim(Member(v, "title"))
        case NotAString => Reject(InvalidRequest)
        case Blank => Reject(ErrorResponse(400, FieldsRequired))
        case Text(title) => Issue(InsertTask(Member(v, "moduleId"), Member(v, "projectId"), title, "backlog", 0))
  }

  /** The whole handler; `db` is what the database answers if the insert is
      issued, and is ignored otherwise. A task is answered with 201 exactly
      when the request was acceptable and the insert succeeded. */
  function Post(body: Option<JsValue>, db: DbResult<JsValue>): (r: Response)
    ensures Acceptable(body) ==> r == Relay(201, db)
    ensures !Acceptable(body) ==> r == InvalidRequest || r == ErrorResponse(400, FieldsRequired)
    ensures r.status == 201 <==> Acceptable(body) && db.DbOk?
    ensures body.Some? && CanDestructure(body.value) && !Truthy(Member(body.value, "moduleId")) ==>
              r == ErrorResponse(400, FieldsRequired)
    ensures && body.Some? && CanDestructure(body.value)
            && Truthy(Member(body.value, "moduleId")) && Truthy(Member(body.value, "projectId"))
            && OptionalTrim(Member(body.value, "title")).Blank? ==>
              r == ErrorResponse(400, FieldsRequired)
  {
    match PlanPost(body)
    case Reject(response) => response
    case Issue(_) => Relay(201, db)
  }
}
